=== FILE: README.md ===
# SRx proxy protocol PDUs in Dafny

This project models the wire format of the SRx proxy protocol. That is the
binary contract between a router-side SRx proxy and the SRx validation
server, declared in `srx-server/src/shared/srx_packets.h`. The header fixes
the following:

- the twelve PDU types and the "unknown" sentinel;
- the six error codes;
- the request-token range, the verify flag bits, the peer-change types and
  the protocol version;
- the packed (`#pragma pack(1)`) layout of every PDU.

Every PDU starts with an 8-byte basic header: a type byte, three
type-specific bytes and a 32-bit total length. Four PDUs end in a variable
tail. In a HELLO the tail is `noPeers` peer ASNs of 4 bytes each. In
VERIFY_V4_REQUEST, VERIFY_V6_REQUEST and SIGNATURE_NOTIFICATION it is a
`bgpsecLength`-byte BGPSEC block.

The model gives each PDU a Dafny value, with one constructor per PDU type.
A pure `Encode` lays the fields out at the offsets the packed structs
imply, in network byte order. A pure `Decode` reads them back and
reports why a buffer is rejected:

- `InsufficientData(n)` when n more bytes are needed;
- `UnknownPduType(code)` for a type byte of 12 or more;
- `Malformed(...)` when the declared length disagrees with the fixed size
  and element count, or when an ERROR carries an error code outside 0..5.

Modules, in dependency order:

| module | file | content |
|---|---|---|
| `Results` | results.dfy | `Option` and `Result` |
| `Bytes` | bytes.dfy | bytes, 8/16/32-bit unsigned integers, big-endian `U16`/`U32` and their readers |
| `Protocol` | protocol.dfy | constants, `ValidToken`, `HasFlag`, error codes, PDU type codes |
| `Layout` | layout.dfy | each packed struct as a field list; fixed sizes; reserved bytes; tails |
| `Pdus` | pdu.dfy | the PDU datatype, its size, well-formedness |
| `Codec` | codec.dfy | `Encode`, `ReadHeader`, `Decode` |
| `RoundTrip` | roundtrip.dfy | `Decode(Encode(p) + rest) == Success(p)` |
| `Framing` | framing.dfy | header view, rejections, declared length is authoritative |
| `Reserved` | reserved.dfy | reserved bytes are written 0 and never read |
| `Canonical` | canonical.dfy | `Encode(Decode(s))` is the decoded frame with reserved bytes zeroed |
| `Wire` | wire.dfy | where every field of every PDU sits on the wire |
| `Scenarios` | scenarios.dfy | a two-peer HELLO, an empty BGPSEC block, token matching, a 13-byte HELLO_RESPONSE and a 21-byte HELLO rejected from the header |

Design choices:

- **Byte order.** The header does not show the byte order, so the model
  writes multi-byte fields big-endian (network order). Only `Bytes.U16` and
  `Bytes.U32` know this.
- **Types from other headers.** `IPv4Address`, `IPv6Address` and
  `SRxUpdateID` are declared in headers that are not part of this model.
  The addresses are taken as 4 and 16 opaque bytes. An `SRxUpdateID` is
  taken as a 32-bit unsigned value, written big-endian like the other
  `uint32_t` fields. These widths match the size comments at lines 193 and
  242.
- **Element counts.** A PDU value stores its peer list or BGPSEC block
  itself. `noPeers` and `bgpsecLength` are the lengths of these, so a PDU
  value cannot disagree with its own count.
- **Where the code comments disagree with the fields.** The model follows
  the struct fields:
  - The comment on the VERIFY_V4_REQUEST length says 24 bytes (line 173).
    Its fields sum to 28 once `requestToken` (line 178) is counted, so the
    fixed size is 28, and a request with no BGPSEC data is 28 bytes long.
  - The PEER_CHANGE comment says 8 bytes (line 278). Its `peerAS` field
    makes it 12.
- **Where the length comes from.** `Decode` takes no separate length
  argument. The declared length is bytes 4..7 of the basic header.
- **Decode order.** Decoding runs these checks in order:
  1. a short header;
  2. an unknown type;
  3. a declared length below the fixed size, or, for a type without a tail,
     different from it;
  4. for a tailed type, a declared length that would end the tail inside an
     element (a HELLO length that is not 20 plus a multiple of 4);
  5. a short fixed part;
  6. a declared length different from the fixed size plus count × element
     size;
  7. a short tail.

  So a wrong length is reported as `Malformed` as soon as it can be known.
  A length that no PDU of the type can have is rejected once the header is
  in. A length that disagrees with the element count is rejected once the
  fixed part with that count is in. The decoder asks for more bytes only
  while the declared length is one some PDU of the type has.
- **Flag bits.** Bits of `flags` other than the three defined ones are kept
  and ignored, never rejected.

## Model

| member | source | states |
|---|---|---|
| Protocol.TypeCode | srx-server/src/shared/srx_packets.h:78-92 | each PDU type's code is the enum value; a type is sent on the wire exactly when its code is below 12 |
| Protocol.TypeOfCode | srx-server/src/shared/srx_packets.h:78-92 | every byte below 12 names the type with that code, and every byte from 12 up names the non-wire UNKNOWN sentinel |
| Protocol.TypeCodeBijective | srx-server/src/shared/srx_packets.h:78-92 | codes and PDU types correspond one to one: reading a type's code gives the type back, and distinct types have distinct codes |
| Protocol.ErrorCodeValue | srx-server/src/shared/srx_packets.h:68-75 | every error code has a value in 0..5 |
| Protocol.ErrorCodeOf | srx-server/src/shared/srx_packets.h:68-75 | a 16-bit value names an error code exactly when it is in 0..5, and then names the one with that value |
| Protocol.ErrorCodeBijective | srx-server/src/shared/srx_packets.h:68-75 | reading an error code's value gives the same code back |
| Protocol.TokenRange | srx-server/src/shared/srx_packets.h:60-65 | a request token is valid exactly when it lies in 1..1000000; the DONOTUSE token 0 is never valid |
| Protocol.FlagsDistinct | srx-server/src/shared/srx_packets.h:48-51 | each of the flag bits 1, 2 and 128 is seen by its own test and not by the others |
| Protocol.SetFlag | srx-server/src/shared/srx_packets.h:48-51 | setting one defined flag bit in any flags byte that lacks it makes that flag seen and leaves the other two defined flags unchanged |
| Bytes.U16 | srx-server/src/shared/srx_packets.h:127 | a 16-bit field takes 2 bytes that read back as the same value |
| Bytes.U32 | srx-server/src/shared/srx_packets.h:113 | a 32-bit field takes 4 bytes that read back as the same value |
| Bytes.U16Canonical | srx-server/src/shared/srx_packets.h:127 | any 2 bytes read as a 16-bit value are written back as the same 2 bytes |
| Bytes.U32Canonical | srx-server/src/shared/srx_packets.h:113 | any 4 bytes read as a 32-bit value are written back as the same 4 bytes |
| Bytes.U32Injective | srx-server/src/shared/srx_packets.h:113 | distinct 32-bit values have distinct encodings |
| Layout.PrefixWidths | srx-server/src/shared/srx_packets.h:107-115 | the basic header is 8 bytes wide, and the verify-request header 16 |
| Layout.VerifyRequestsSharePrefix | srx-server/src/shared/srx_packets.h:208-219 | both verify-request structs begin with the ten fields of the verify-request header |
| Layout.FixedSizeIsPacked | srx-server/src/shared/srx_packets.h:125-300 | every struct is packed from offset 0 with no padding, and each fixed size (20, 12, 8, 28, 40, 20, 16, 16, 12, 12, 8, 8) is the sum of its field widths |
| Layout.CommonHeaderShape | srx-server/src/shared/srx_packets.h:107-115 | every struct has its type byte at 0 and its total length at bytes 4..7, and is at least 8 bytes long |
| Layout.CountIsLastField | srx-server/src/shared/srx_packets.h:125-258 | exactly HELLO, the two verify requests and SIGNATURE_NOTIFICATION have an element count, and it is the last 4 bytes of the fixed part |
| Layout.ReservedRuns | srx-server/src/shared/srx_packets.h:125-300 | the reserved and `zero` fields of each struct, as byte runs |
| Layout.ReservedIsPacked | srx-server/src/shared/srx_packets.h:125-300 | a byte is reserved for a type exactly when a reserved or `zero` field of its struct covers it |
| Pdus.WellFormed | srx-server/src/shared/srx_packets.h:107-115 | a PDU fits the 32-bit `length` field exactly when its tail is short enough: every fixed-size PDU fits, a HELLO fits with fewer than 0x3FFFFFFB peers, and the BGPSEC PDUs fit while their block is shorter than 2^32 minus their 28-, 40- or 16-byte fixed part |
| Codec.PeerBytes | srx-server/src/shared/srx_packets.h:125-134 | the peer list of a HELLO takes 4 bytes per peer |
| Codec.ReadPeers | srx-server/src/shared/srx_packets.h:125-134 | a byte run of 4-byte peers reads back as a list of a quarter its length |
| Codec.Encode | srx-server/src/shared/srx_packets.h:107-115 | an encoding is exactly as long as the PDU's fixed size plus its tail; the Wire lemmas state where each field sits |
| Codec.ExpectedLength | srx-server/src/shared/srx_packets.h:125-134 | the length a tailed PDU must declare, taken from the count that ends its fixed part, is at least the fixed size and leaves a whole number of tail elements |
| Codec.Decode | srx-server/src/shared/srx_packets.h:107-115 | a successful decode has a full basic header, yields a PDU of the type byte 0 names, and that PDU's size is the declared length in bytes 4..7, which the buffer holds; RoundTripStream, DecodedFrame, WrongLengthIsMalformed and EncodeOfDecoded state the rest of its behaviour |
| Codec.ReadHeader | srx-server/src/shared/srx_packets.h:107-115 | the basic header can be read exactly when 8 bytes are present, and then gives the type byte and the value of bytes 4..7; otherwise it asks for the missing bytes |
| Codec.DecodeFixed | srx-server/src/shared/srx_packets.h:295-300 | a fixed-size frame decodes to a PDU of its type and size; it fails exactly for an ERROR whose code is above 5 |
| Codec.DecodeTailed | srx-server/src/shared/srx_packets.h:125-258 | a tailed frame whose length matches its count decodes to a PDU of its type whose size is the frame's length |
| RoundTrip.PeersRoundTrip | srx-server/src/shared/srx_packets.h:117-133 | a peer list reads back from its bytes unchanged and in order |
| RoundTrip.FrameHello | srx-server/src/shared/srx_packets.h:125-134 | a HELLO's encoding declares its own length and decodes back to the same version, identifier, ASN and peers |
| RoundTrip.FrameHelloResponse | srx-server/src/shared/srx_packets.h:139-145 | a HELLO_RESPONSE's encoding decodes back to it |
| RoundTrip.FrameGoodbye | srx-server/src/shared/srx_packets.h:150-155 | a GOODBYE's encoding decodes back to it |
| RoundTrip.FrameVerifyV4 | srx-server/src/shared/srx_packets.h:168-183 | a VERIFY_V4_REQUEST's encoding declares its own length and decodes back to the same header fields, prefix, origin AS and BGPSEC block |
| RoundTrip.FrameVerifyV6 | srx-server/src/shared/srx_packets.h:188-203 | the same for VERIFY_V6_REQUEST |
| RoundTrip.FrameSignRequest | srx-server/src/shared/srx_packets.h:224-232 | a SIGN_REQUEST's encoding decodes back to it |
| RoundTrip.FrameVerifyNotification | srx-server/src/shared/srx_packets.h:237-245 | a VERIFY_NOTIFICATION's encoding decodes back to it, token included |
| RoundTrip.FrameSignatureNotification | srx-server/src/shared/srx_packets.h:250-258 | a SIGNATURE_NOTIFICATION's encoding declares its own length and decodes back to it |
| RoundTrip.FrameDeleteUpdate | srx-server/src/shared/srx_packets.h:263-269 | a DELETE_UPDATE's encoding decodes back to it |
| RoundTrip.FramePeerChange | srx-server/src/shared/srx_packets.h:274-280 | a PEER_CHANGE's encoding decodes back to it |
| RoundTrip.FrameSyncRequest | srx-server/src/shared/srx_packets.h:285-290 | a SYNC_REQUEST's encoding decodes back to it |
| RoundTrip.FrameError | srx-server/src/shared/srx_packets.h:295-300 | an ERROR's encoding decodes back to the same error code |
| RoundTrip.FrameOfEncoding | srx-server/src/shared/srx_packets.h:125-300 | the frame of every well-formed PDU declares its own length and decodes back to it |
| RoundTrip.RoundTripStream | srx-server/src/shared/srx_packets.h:107-115 | decoding an encoding followed by any bytes gives the PDU back; the length field stops the decoder at the end of the frame |
| RoundTrip.RoundTripExact | srx-server/src/shared/srx_packets.h:125-300 | decoding the encoding of every well-formed PDU gives it back |
| Framing.HeaderOfEncoding | srx-server/src/shared/srx_packets.h:107-115 | the basic-header view of an encoding gives the PDU's type code and its total byte count |
| Framing.RejectsShortOrUnknown | srx-server/src/shared/srx_packets.h:78-92 | fewer than 8 bytes ask for exactly the missing bytes; with a full header a buffer is rejected as an unknown type exactly when its type byte is 12 or more |
| Layout.TailFitsWholeElements | srx-server/src/shared/srx_packets.h:124-134 | a length fits a tailed type exactly when the bytes after its fixed part are a whole number of its elements: 4-byte peers for a HELLO, single bytes of BGPSEC data for the others |
| Framing.WrongLengthIsMalformed | srx-server/src/shared/srx_packets.h:107-134 | a declared length that cannot be right is malformed as soon as it can be known: a length no PDU of the type can have (not the size of a type without a tail, or a HELLO length that is not 20 plus a multiple of 4) right after the header, and a length that disagrees with the element count right after the fixed part; a request for more bytes means the declared length is still possible for the type |
| Framing.DecodedFrame | srx-server/src/shared/srx_packets.h:107-115 | a buffer that decodes names the PDU's type in byte 0 and its size in bytes 4..7, and its declared prefix alone decodes to the same PDU |
| Framing.DecodeIgnoresTrailing | srx-server/src/shared/srx_packets.h:107-115 | bytes after the declared length never change what a buffer decodes to |
| Framing.Relength | srx-server/src/shared/srx_packets.h:107-115 | in a buffer that decodes, any other value in the length field makes it malformed, and only the true size is accepted |
| Framing.LengthTamper | srx-server/src/shared/srx_packets.h:107-115 | the same for the encoding of a PDU |
| Reserved.EncodeZeroesReserved | srx-server/src/shared/srx_packets.h:125-300 | every reserved or `zero` byte of an encoding is 0 |
| Reserved.FrameIgnoresReserved | srx-server/src/shared/srx_packets.h:125-300 | two frames that differ only in reserved bytes decode alike |
| Reserved.DecodeIgnoresReserved | srx-server/src/shared/srx_packets.h:125-300 | two buffers that differ only in the reserved bytes of the type they name decode to the same PDU or the same error |
| Canonical.PeersCanonical | srx-server/src/shared/srx_packets.h:117-133 | any peer-list bytes read as ASNs are written back as the same bytes |
| Canonical.InjectiveHello | srx-server/src/shared/srx_packets.h:125-134 | two HELLO frames with the same type byte, length, reserved byte and decoded PDU are equal |
| Canonical.InjectiveHelloResponse | srx-server/src/shared/srx_packets.h:139-145 | the same for HELLO_RESPONSE frames |
| Canonical.InjectiveGoodbye | srx-server/src/shared/srx_packets.h:150-155 | the same for GOODBYE frames |
| Canonical.InjectiveVerifyHeader | srx-server/src/shared/srx_packets.h:208-219 | two verify-request headers with the same type byte, length, `zero` byte and header fields are equal |
| Canonical.InjectiveVerifyV4 | srx-server/src/shared/srx_packets.h:168-183 | the same for VERIFY_V4_REQUEST frames |
| Canonical.InjectiveVerifyV6 | srx-server/src/shared/srx_packets.h:188-203 | the same for VERIFY_V6_REQUEST frames |
| Canonical.InjectiveSignRequest | srx-server/src/shared/srx_packets.h:224-232 | the same for SIGN_REQUEST frames |
| Canonical.InjectiveVerifyNotification | srx-server/src/shared/srx_packets.h:237-245 | the same for VERIFY_NOTIFICATION frames |
| Canonical.InjectiveSignatureNotification | srx-server/src/shared/srx_packets.h:250-258 | the same for SIGNATURE_NOTIFICATION frames |
| Canonical.InjectiveDeleteUpdate | srx-server/src/shared/srx_packets.h:263-269 | the same for DELETE_UPDATE frames |
| Canonical.InjectivePeerChange | srx-server/src/shared/srx_packets.h:274-280 | the same for PEER_CHANGE frames |
| Canonical.InjectiveSyncRequest | srx-server/src/shared/srx_packets.h:285-290 | the same for SYNC_REQUEST frames |
| Canonical.InjectiveError | srx-server/src/shared/srx_packets.h:295-300 | the same for ERROR frames |
| Canonical.FrameInjective | srx-server/src/shared/srx_packets.h:125-300 | a complete frame of any type is determined by its type byte, length, reserved bytes and decoded PDU |
| Canonical.ZeroedFrame | srx-server/src/shared/srx_packets.h:125-300 | zeroing a frame's reserved bytes keeps its header and what it decodes to |
| Canonical.EncodeOfDecoded | srx-server/src/shared/srx_packets.h:125-300 | re-encoding a decoded PDU gives back exactly the bytes the decoder read, with the reserved bytes set to 0 |
| Wire.ReadPeersAt | srx-server/src/shared/srx_packets.h:117-120 | the k-th peer read from a peer list is the 32-bit value at byte 4k |
| Wire.HelloLayout | srx-server/src/shared/srx_packets.h:125-134 | a HELLO with n peers takes 20 + 4n bytes, with its version, identifier and ASN where the struct puts them and `noPeers` = n |
| Wire.HelloPeers | srx-server/src/shared/srx_packets.h:125-134 | the peer ASNs follow the fixed part in the caller's order, peer k at byte 20 + 4k |
| Wire.BgpsecLayout | srx-server/src/shared/srx_packets.h:157-163 | for the verify requests and SIGNATURE_NOTIFICATION the length is the fixed size plus `bgpsecLength`, the count field holds it, and the block closes the frame; an empty block gives exactly the fixed size |
| Wire.VerifyRequestFields | srx-server/src/shared/srx_packets.h:208-219 | a verify request carries its flags at byte 1, its defaults at 8 and 9, 0 at 10, its prefix length at 11 and its request token at 12..15 |
| Wire.VerifyNotificationFields | srx-server/src/shared/srx_packets.h:237-245 | a verify notification carries its results at bytes 1..3, its request token at 8..11 and its update id at 12..15 |
| Wire.HelloResponseFields | srx-server/src/shared/srx_packets.h:139-145 | a HELLO_RESPONSE carries its version at bytes 1..2 and its proxy identifier at 8..11 |
| Wire.GoodbyeFields | srx-server/src/shared/srx_packets.h:150-155 | a GOODBYE carries its keep window at bytes 1..2 |
| Wire.VerifyV4AddressFields | srx-server/src/shared/srx_packets.h:168-183 | a VERIFY_V4_REQUEST carries its 4-byte prefix address at bytes 16..19 and its origin AS at 20..23 |
| Wire.VerifyV6AddressFields | srx-server/src/shared/srx_packets.h:188-203 | a VERIFY_V6_REQUEST carries its 16-byte prefix address at bytes 16..31 and its origin AS at 32..35 |
| Wire.SignRequestFields | srx-server/src/shared/srx_packets.h:224-232 | a SIGN_REQUEST carries its algorithm at bytes 1..2, its block type at 3, and its update identifier, prepend counter and peer AS at 8, 12 and 16 |
| Wire.SignatureNotificationFields | srx-server/src/shared/srx_packets.h:250-258 | a SIGNATURE_NOTIFICATION carries its update identifier at bytes 8..11 |
| Wire.DeleteUpdateFields | srx-server/src/shared/srx_packets.h:263-269 | a DELETE_UPDATE carries its keep window at bytes 1..2 and its update identifier at 8..11 |
| Wire.PeerChangeFields | srx-server/src/shared/srx_packets.h:274-280 | a PEER_CHANGE carries its change type at byte 3 and its peer AS at 8..11 |
| Wire.ErrorFields | srx-server/src/shared/srx_packets.h:295-300 | an ERROR carries its error code's value at bytes 1..2 |
| Wire.DecodedVerifyRequest | srx-server/src/shared/srx_packets.h:168-178 | a decoded verify request has the buffer's flags byte, so every flag bit, and its token field unchanged |
| Wire.DecodedVerifyNotification | srx-server/src/shared/srx_packets.h:237-245 | a decoded verify notification has the buffer's result type and token field unchanged |
| Scenarios.HelloScenario | srx-server/src/shared/srx_packets.h:125-134 | a HELLO of ASN 64 with peers [32, 48] is 28 bytes long, and decodes back to ASN 64 and peers [32, 48] in that order |
| Scenarios.EmptyBgpsecScenario | srx-server/src/shared/srx_packets.h:168-183 | a VERIFY_V4_REQUEST with `bgpsecLength` = 0 is exactly 28 bytes long and decodes to an empty block |
| Scenarios.WrongFixedLengthScenario | srx-server/src/shared/srx_packets.h:139-145 | a HELLO_RESPONSE header declaring 13 bytes is rejected as malformed from its 8 header bytes alone, since the struct is 12 bytes with no tail |
| Scenarios.PartialPeerScenario | srx-server/src/shared/srx_packets.h:124-134 | a HELLO header declaring 21 bytes is rejected as malformed from its 8 header bytes alone, since the peer list after the 20-byte fixed part would end inside a peer |
| Scenarios.TokenScenario | srx-server/src/shared/srx_packets.h:237-245 | a decoded notification carries a decoded request's token exactly when their wire token fields hold the same value |

## Left out

- `bgpsec-io/cfg/cfgFile.c` writes a sample configuration file. It is file I/O and text templating, not part of the wire format.
- `srx-server/src/shared/crc32.h` is a bare prototype of a standard CRC-32 with no body; nothing in the PDU layouts uses it.
- `packetTypeToStr` (srx_packets.h:310) is only declared; its display strings are not visible.
- The token correlator is left out. It issues tokens, matches notifications and abandons tokens, and it is shared mutable state between concurrent threads. The model proves only the wire half: which bytes carry a token, and that a token survives encoding and decoding.
- The HELLO/GOODBYE session state machine is left out, including the version check that would answer a mismatch with `SRXERR_WRONG_VERSION`. The version is carried as a plain 16-bit field.
- Transport framing across fragmented reads is left out. `Decode` reports `InsufficientData(n)`; the code that waits for n more bytes is not modelled.
- The contents of the BGPSEC block are an opaque byte sequence.
- The internal layouts of `IPv4Address` and `IPv6Address` are left out; they are opaque 4- and 16-byte values. The internal structure of `SRxUpdateID` is left out too; it is carried as a 32-bit unsigned value.
- The meanings of `SRX_ALGORITHM_UNITTEST`, `SRX_PROXY_BLOCK_TYPE_LATEST_SIGNATURE`, the result sources and the result values are left out. They are declared as constants or carried as plain bytes, and nothing in the header gives them more structure.
- The `changeType` byte of a PEER_CHANGE is carried as any byte, and the decoder does not reject other values. `SRX_PROXY_PEER_CHANGE_TYPE_REMOVE` (0) and `SRX_PROXY_PEER_CHANGE_TYPE_ADD` (1) are declared only. The error codes form the enum `SRxErrorType`, which the model reads as a closed set. The peer-change types are two bare `#define`s, so the model keeps the byte open.
- Codec.Encode: requires the total length to fit the 32-bit `length` field (`Pdus.WellFormed`). The C structs cannot express a longer PDU, so what a sender does with one is not modelled.
- Codec.DecodeFixed: an ERROR whose 16-bit code lies outside 0..5 is rejected as malformed. The header declares only the closed enum, so accepting such a value is a decision the header does not make, and the model takes the closed reading.

=== FILE: bytes.dfy ===
/**
 Bytes and the fixed-width unsigned integers of the SRx proxy wire format.

 Every scalar field of a packed SRx PDU is an unsigned 8-, 16- or 32-bit
 integer. The wire carries them in network byte order (big-endian); this
 module is the only place that knows that.
 */
module Bytes {

  type uint8 = x: int | 0 <= x < 0x100
  type uint16 = x: int | 0 <= x < 0x1_0000
  type uint32 = x: int | 0 <= x < 0x1_0000_0000

  /** One octet on the wire. */
  type byte = uint8

  /** A 16-bit field, most significant byte first. */
  function U16(x: uint16): (r: seq<byte>)
    ensures |r| == 2
    ensures U16At(r, 0) == x
  {
    [x / 0x100, x % 0x100]
  }

  /** A 32-bit field, most significant byte first. */
  function U32(x: uint32): (r: seq<byte>)
    ensures |r| == 4
    ensures U32At(r, 0) == x
  {
    var hi := x / 0x100;
    var mid := hi / 0x100;
    [mid / 0x100, mid % 0x100, hi % 0x100, x % 0x100]
  }

  /** The big-endian 16-bit value stored at offset i. */
  function U16At(s: seq<byte>, i: nat): (r: uint16)
    requires i + 2 <= |s|
  {
    (s[i] as int) * 0x100 + s[i + 1] as int
  }

  /** The big-endian 32-bit value stored at offset i. */
  function U32At(s: seq<byte>, i: nat): (r: uint32)
    requires i + 4 <= |s|
  {
    (s[i] as int) * 0x100_0000 + (s[i + 1] as int) * 0x1_0000
    + (s[i + 2] as int) * 0x100 + s[i + 3] as int
  }

  /** Splitting off the low byte of q * 0x100 + lo gives q and lo back. */
  lemma SplitByte(q: int, lo: int)
    requires 0 <= lo < 0x100
    ensures (q * 0x100 + lo) / 0x100 == q && (q * 0x100 + lo) % 0x100 == lo
  {
  }

  /** Reading a 16-bit field and writing it back gives the same two bytes. */
  lemma U16Canonical(s: seq<byte>, i: nat)
    requires i + 2 <= |s|
    ensures U16(U16At(s, i)) == s[i..i + 2]
  {
    SplitByte(s[i], s[i + 1]);
  }

  /** Reading a 32-bit field and writing it back gives the same four bytes. */
  lemma U32Canonical(s: seq<byte>, i: nat)
    requires i + 4 <= |s|
    ensures U32(U32At(s, i)) == s[i..i + 4]
  {
    var mid := (s[i] as int) * 0x100 + s[i + 1] as int;
    var hi := mid * 0x100 + s[i + 2] as int;
    assert U32At(s, i) == hi * 0x100 + s[i + 3] as int;
    SplitByte(hi, s[i + 3]);
    SplitByte(mid, s[i + 2]);
    SplitByte(s[i], s[i + 1]);
  }

  /** A 32-bit field read anywhere depends only on its own four bytes. */
  lemma U32AtSlice(s: seq<byte>, i: nat, x: uint32)
    requires i + 4 <= |s|
    requires s[i..i + 4] == U32(x)
    ensures U32At(s, i) == x
  {
    assert s[i..i + 4][0] == s[i];
    assert s[i..i + 4][1] == s[i + 1];
    assert s[i..i + 4][2] == s[i + 2];
    assert s[i..i + 4][3] == s[i + 3];
  }

  /** Two distinct 32-bit values never share an encoding. */
  lemma U32Injective(x: uint32, y: uint32)
    requires U32(x) == U32(y)
    ensures x == y
  {
  }
}

=== FILE: canonical.dfy ===
/**
 The other direction of the round trip: re-encoding what the decoder read
 from a buffer gives back that buffer's frame, with its reserved bytes set
 to 0. Together with the round trip this makes Encode and Decode inverse
 bijections between well-formed PDUs and the frames that decode and whose
 reserved bytes are 0.
 */
module Canonical {
  import opened Results
  import opened Bytes
  import opened Protocol
  import opened Layout
  import opened Pdus
  import opened Codec
  import opened RoundTrip
  import opened Framing
  import opened Reserved

  /** Reading a peer list and writing it back gives the same bytes. */
  lemma {:induction false} PeersCanonical(s: seq<byte>)
    requires |s| % 4 == 0
    ensures PeerBytes(ReadPeers(s)) == s
  {
    if s != [] {
      PeersCanonical(s[4..]);
      U32Canonical(s, 0);
      assert s == s[0..4] + s[4..];
    }
  }


  // Equal prefixes grow one field at a time.

  lemma ExtendByte(e: seq<byte>, z: seq<byte>, a: nat)
    requires a < |e| && a < |z| && e[..a] == z[..a] && e[a] == z[a]
    ensures e[..a + 1] == z[..a + 1]
  {
    assert e[..a + 1] == e[..a] + [e[a]];
    assert z[..a + 1] == z[..a] + [z[a]];
  }

  lemma ExtendSlice(e: seq<byte>, z: seq<byte>, a: nat, b: nat)
    requires a <= b <= |e| && b <= |z| && e[..a] == z[..a] && e[a..b] == z[a..b]
    ensures e[..b] == z[..b]
  {
    assert e[..b] == e[..a] + e[a..b];
    assert z[..b] == z[..a] + z[a..b];
  }

  lemma ExtendU16(e: seq<byte>, z: seq<byte>, a: nat)
    requires a + 2 <= |e| && a + 2 <= |z| && e[..a] == z[..a] && U16At(e, a) == U16At(z, a)
    ensures e[..a + 2] == z[..a + 2]
  {
    U16Canonical(e, a);
    U16Canonical(z, a);
    ExtendSlice(e, z, a, a + 2);
  }

  lemma ExtendU32(e: seq<byte>, z: seq<byte>, a: nat)
    requires a + 4 <= |e| && a + 4 <= |z| && e[..a] == z[..a] && U32At(e, a) == U32At(z, a)
    ensures e[..a + 4] == z[..a + 4]
  {
    U32Canonical(e, a);
    U32Canonical(z, a);
    ExtendSlice(e, z, a, a + 4);
  }

  lemma Glue(e: seq<byte>, z: seq<byte>, a: nat)
    requires a <= |e| == |z| && e[..a] == z[..a] && e[a..] == z[a..]
    ensures e == z
  {
    assert e == e[..a] + e[a..];
    assert z == z[..a] + z[a..];
  }

  /** The 16-byte verify-request header is determined by its type byte,
      length, `zero` byte and the fields ReadVerifyHeader reads. */
  lemma InjectiveVerifyHeader(e: seq<byte>, z: seq<byte>)
    requires 16 <= |e| && 16 <= |z| && e[0] == z[0] && U32At(e, 4) == U32At(z, 4)
    requires e[10] == z[10] && ReadVerifyHeader(e) == ReadVerifyHeader(z)
    ensures e[..16] == z[..16]
  {
    ExtendByte(e, z, 0);
    ExtendByte(e, z, 1);
    ExtendByte(e, z, 2);
    ExtendByte(e, z, 3);
    ExtendU32(e, z, 4);
    ExtendByte(e, z, 8);
    ExtendByte(e, z, 9);
    ExtendByte(e, z, 10);
    ExtendByte(e, z, 11);
    ExtendU32(e, z, 12);
  }

  // One lemma per PDU type: two complete frames of that type with the same
  // type byte, length field, reserved bytes and decoded PDU are equal.

  lemma InjectiveVerifyV4(e: seq<byte>, z: seq<byte>)
    requires FixedSize(PduType.VerifyV4Request) <= |e| == |z|
    requires |e| == ExpectedLength(PduType.VerifyV4Request, e)
    requires |z| == ExpectedLength(PduType.VerifyV4Request, z)
    requires e[0] == z[0] && U32At(e, 4) == U32At(z, 4) && e[10] == z[10]
    requires DecodeTailed(PduType.VerifyV4Request, e) == DecodeTailed(PduType.VerifyV4Request, z)
    ensures e == z
  {
    InjectiveVerifyHeader(e, z);
    ExtendSlice(e, z, 16, 20);
    ExtendU32(e, z, 20);
    ExtendU32(e, z, 24);
    Glue(e, z, 28);
  }

  lemma InjectiveHello(e: seq<byte>, z: seq<byte>)
    requires FixedSize(PduType.Hello) <= |e| == |z|
    requires |e| == ExpectedLength(PduType.Hello, e)
    requires |z| == ExpectedLength(PduType.Hello, z)
    requires e[0] == z[0] && U32At(e, 4) == U32At(z, 4) && e[3] == z[3]
    requires DecodeTailed(PduType.Hello, e) == DecodeTailed(PduType.Hello, z)
    ensures e == z
  {
    ExtendByte(e, z, 0);
    ExtendU16(e, z, 1);
    ExtendByte(e, z, 3);
    ExtendU32(e, z, 4);
    ExtendU32(e, z, 8);
    ExtendU32(e, z, 12);
    ExtendU32(e, z, 16);
    PeersCanonical(e[20..]);
    PeersCanonical(z[20..]);
    Glue(e, z, 20);
  }

  lemma InjectiveVerifyV6(e: seq<byte>, z: seq<byte>)
    requires FixedSize(PduType.VerifyV6Request) <= |e| == |z|
    requires |e| == ExpectedLength(PduType.VerifyV6Request, e)
    requires |z| == ExpectedLength(PduType.VerifyV6Request, z)
    requires e[0] == z[0] && U32At(e, 4) == U32At(z, 4) && e[10] == z[10]
    requires DecodeTailed(PduType.VerifyV6Request, e) == DecodeTailed(PduType.VerifyV6Request, z)
    ensures e == z
  {
    InjectiveVerifyHeader(e, z);
    ExtendSlice(e, z, 16, 32);
    ExtendU32(e, z, 32);
    ExtendU32(e, z, 36);
    Glue(e, z, 40);
  }

  lemma InjectiveSignatureNotification(e: seq<byte>, z: seq<byte>)
    requires FixedSize(PduType.SignatureNotification) <= |e| == |z|
    requires |e| == ExpectedLength(PduType.SignatureNotification, e)
    requires |z| == ExpectedLength(PduType.SignatureNotification, z)
    requires e[0] == z[0] && U32At(e, 4) == U32At(z, 4)
    requires e[1] == z[1] && e[2] == z[2] && e[3] == z[3]
    requires DecodeTailed(PduType.SignatureNotification, e) == DecodeTailed(PduType.SignatureNotification, z)
    ensures e == z
  {
    ExtendByte(e, z, 0);
    ExtendByte(e, z, 1);
    ExtendByte(e, z, 2);
    ExtendByte(e, z, 3);
    ExtendU32(e, z, 4);
    ExtendU32(e, z, 8);
    ExtendU32(e, z, 12);
    Glue(e, z, 16);
  }

  lemma InjectiveHelloResponse(e: seq<byte>, z: seq<byte>)
    requires |e| == |z| == FixedSize(PduType.HelloResponse)
    requires e[0] == z[0] && U32At(e, 4) == U32At(z, 4) && e[3] == z[3]
    requires DecodeFixed(PduType.HelloResponse, e).Success?
    requires DecodeFixed(PduType.HelloResponse, e) == DecodeFixed(PduType.HelloResponse, z)
    ensures e == z
  {
    ExtendByte(e, z, 0);
    ExtendU16(e, z, 1);
    ExtendByte(e, z, 3);
    ExtendU32(e, z, 4);
    ExtendU32(e, z, 8);
    Glue(e, z, 12);
  }

  lemma InjectiveGoodbye(e: seq<byte>, z: seq<byte>)
    requires |e| == |z| == FixedSize(PduType.Goodbye)
    requires e[0] == z[0] && U32At(e, 4) == U32At(z, 4) && e[3] == z[3]
    requires DecodeFixed(PduType.Goodbye, e).Success?
    requires DecodeFixed(PduType.Goodbye, e) == DecodeFixed(PduType.Goodbye, z)
    ensures e == z
  {
    ExtendByte(e, z, 0);
    ExtendU16(e, z, 1);
    ExtendByte(e, z, 3);
    ExtendU32(e, z, 4);
    Glue(e, z, 8);
  }

  lemma InjectiveSignRequest(e: seq<byte>, z: seq<byte>)
    requires |e| == |z| == FixedSize(PduType.SignRequest)
    requires e[0] == z[0] && U32At(e, 4) == U32At(z, 4)
    requires DecodeFixed(PduType.SignRequest, e).Success?
    requires DecodeFixed(PduType.SignRequest, e) == DecodeFixed(PduType.SignRequest, z)
    ensures e == z
  {
    ExtendByte(e, z, 0);
    ExtendU16(e, z, 1);
    ExtendByte(e, z, 3);
    ExtendU32(e, z, 4);
    ExtendU32(e, z, 8);
    ExtendU32(e, z, 12);
    ExtendU32(e, z, 16);
    Glue(e, z, 20);
  }

  lemma InjectiveVerifyNotification(e: seq<byte>, z: seq<byte>)
    requires |e| == |z| == FixedSize(PduType.VerifyNotification)
    requires e[0] == z[0] && U32At(e, 4) == U32At(z, 4)
    requires DecodeFixed(PduType.VerifyNotification, e).Success?
    requires DecodeFixed(PduType.VerifyNotification, e) == DecodeFixed(PduType.VerifyNotification, z)
    ensures e == z
  {
    ExtendByte(e, z, 0);
    ExtendByte(e, z, 1);
    ExtendByte(e, z, 2);
    ExtendByte(e, z, 3);
    ExtendU32(e, z, 4);
    ExtendU32(e, z, 8);
    ExtendU32(e, z, 12);
    Glue(e, z, 16);
  }

  lemma InjectiveDeleteUpdate(e: seq<byte>, z: seq<byte>)
    requires |e| == |z| == FixedSize(PduType.DeleteUpdate)
    requires e[0] == z[0] && U32At(e, 4) == U32At(z, 4) && e[3] == z[3]
    requires DecodeFixed(PduType.DeleteUpdate, e).Success?
    requires DecodeFixed(PduType.DeleteUpdate, e) == DecodeFixed(PduType.DeleteUpdate, z)
    ensures e == z
  {
    ExtendByte(e, z, 0);
    ExtendU16(e, z, 1);
    ExtendByte(e, z, 3);
    ExtendU32(e, z, 4);
    ExtendU32(e, z, 8);
    Glue(e, z, 12);
  }

  lemma InjectivePeerChange(e: seq<byte>, z: seq<byte>)
    requires |e| == |z| == FixedSize(PduType.PeerChange)
    requires e[0] == z[0] && U32At(e, 4) == U32At(z, 4) && e[1] == z[1] && e[2] == z[2]
    requires DecodeFixed(PduType.PeerChange, e).Success?
    requires DecodeFixed(PduType.PeerChange, e) == DecodeFixed(PduType.PeerChange, z)
    ensures e == z
  {
    ExtendByte(e, z, 0);
    ExtendByte(e, z, 1);
    ExtendByte(e, z, 2);
    ExtendByte(e, z, 3);
    ExtendU32(e, z, 4);
    ExtendU32(e, z, 8);
    Glue(e, z, 12);
  }

  lemma InjectiveSyncRequest(e: seq<byte>, z: seq<byte>)
    requires |e| == |z| == FixedSize(PduType.SyncRequest)
    requires e[0] == z[0] && U32At(e, 4) == U32At(z, 4)
    requires e[1] == z[1] && e[2] == z[2] && e[3] == z[3]
    requires DecodeFixed(PduType.SyncRequest, e).Success?
    requires DecodeFixed(PduType.SyncRequest, e) == DecodeFixed(PduType.SyncRequest, z)
    ensures e == z
  {
    ExtendByte(e, z, 0);
    ExtendByte(e, z, 1);
    ExtendByte(e, z, 2);
    ExtendByte(e, z, 3);
    ExtendU32(e, z, 4);
    Glue(e, z, 8);
  }

  lemma InjectiveError(e: seq<byte>, z: seq<byte>)
    requires |e| == |z| == FixedSize(PduType.Error)
    requires e[0] == z[0] && U32At(e, 4) == U32At(z, 4) && e[3] == z[3]
    requires DecodeFixed(PduType.Error, e).Success?
    requires DecodeFixed(PduType.Error, e) == DecodeFixed(PduType.Error, z)
    ensures e == z
  {
    ExtendByte(e, z, 0);
    ExtendU16(e, z, 1);
    ExtendByte(e, z, 3);
    ExtendU32(e, z, 4);
    Glue(e, z, 8);
  }

  /** A complete frame is determined by the PDU it decodes to together with
      its type byte, its length field and its reserved bytes. */
  lemma FrameInjective(t: PduType, e: seq<byte>, z: seq<byte>)
    requires t.OnWire() && FixedSize(t) <= |e| == |z|
    requires |e| == ExpectedLength(t, e) && |z| == ExpectedLength(t, z)
    requires e[0] == z[0] && U32At(e, 4) == U32At(z, 4)
    requires forall i :: 0 <= i < |e| && IsReserved(t, i) ==> e[i] == z[i]
    requires DecodeFrame(t, e).Success? && DecodeFrame(t, e) == DecodeFrame(t, z)
    ensures e == z
  {
    assert IsReserved(t, 1) ==> e[1] == z[1];
    assert IsReserved(t, 2) ==> e[2] == z[2];
    assert IsReserved(t, 3) ==> e[3] == z[3];
    assert IsReserved(t, 10) ==> e[10] == z[10];
    match t
    case Hello => InjectiveHello(e, z);
    case HelloResponse => InjectiveHelloResponse(e, z);
    case Goodbye => InjectiveGoodbye(e, z);
    case VerifyV4Request => InjectiveVerifyV4(e, z);
    case VerifyV6Request => InjectiveVerifyV6(e, z);
    case SignRequest => InjectiveSignRequest(e, z);
    case VerifyNotification => InjectiveVerifyNotification(e, z);
    case SignatureNotification => InjectiveSignatureNotification(e, z);
    case DeleteUpdate => InjectiveDeleteUpdate(e, z);
    case PeerChange => InjectivePeerChange(e, z);
    case SyncRequest => InjectiveSyncRequest(e, z);
    case Error => InjectiveError(e, z);
  }

  /** Zeroing the reserved bytes of a complete frame keeps its type byte,
      its length field and what it decodes to. */
  lemma ZeroedFrame(t: PduType, f: seq<byte>, v: Pdu)
    requires t.OnWire() && FixedSize(t) <= |f| && |f| == ExpectedLength(t, f)
    requires DecodeFrame(t, f) == Success(v)
    ensures var z := Zeroed(t, f);
            FixedSize(t) <= |z| && |z| == ExpectedLength(t, z) &&
            DecodeFrame(t, z) == Success(v) &&
            z[0] == f[0] && U32At(z, 4) == U32At(f, 4) &&
            forall i :: 0 <= i < |z| && IsReserved(t, i) ==> z[i] == 0
  {
    var z := Zeroed(t, f);
    assert SameFields(t, f, z);
    FrameIgnoresReserved(t, f, z);
    AgreeOutside(t, f, z);
  }

  /** Re-encoding what a buffer decodes to gives back the frame the decoder
      read, with its reserved bytes set to 0. */
  lemma EncodeOfDecoded(s: seq<byte>, v: Pdu)
    requires Decode(s) == Success(v)
    ensures WellFormed(v) && Size(v) <= |s|
    ensures Encode(v) == Zeroed(TypeOf(v), s[..Size(v)])
  {
    DecodedFrame(s, v);
    var t := TypeOf(v);
    var f := s[..Size(v)];
    var e := Encode(v);
    ExpectedLengthOfPrefix(t, s, Size(v));
    DecodeAccepts(s, t, Size(v));
    ZeroedFrame(t, f, v);
    var z := Zeroed(t, f);
    FrameOfEncoding(v);
    HeaderOfEncoding(v);
    U32Canonical(e, 4);
    forall i | 0 <= i < |e| && IsReserved(t, i)
      ensures e[i] == z[i]
    {
      EncodeZeroesReserved(v, i);
    }
    FrameInjective(t, e, z);
  }
}

=== FILE: codec.dfy ===
/**
 Encoding PDU values to their packed big-endian wire form and decoding them
 back: the header reader, the variable-section extractor and the per-type
 codec.
 */
module Codec {
  import opened Results
  import opened Bytes
  import opened Protocol
  import opened Layout
  import opened Pdus

  /** Why a buffer does not decode to a PDU. */
  datatype DecodeError =
    | InsufficientData(needed: nat)   // the buffer is short by this many bytes
    | UnknownPduType(code: uint8)     // the type byte names no PDU type
    | Malformed(reason: Malformation) // a known PDU that violates its layout

  datatype Malformation =
    | LengthMismatch(declared: uint32, expected: nat)
    | PartialElement(declared: uint32)  // the tail would end inside an element
    | ErrorCodeOutOfRange(value: uint16)

  // ---------------------------------------------------------------- encoding

  /** The peer ASNs of a HELLO, 4 bytes each, in list order. */
  function PeerBytes(peers: seq<uint32>): (r: seq<byte>)
    ensures |r| == 4 * |peers|
  {
    if peers == [] then [] else U32(peers[0]) + PeerBytes(peers[1..])
  }

  /** Bytes 1..3 of a PDU: the type-specific part of the basic header. */
  function Mid(p: Pdu): (r: seq<byte>)
    ensures |r| == 3
  {
    match p
    case Hello(version, _, _, _) => U16(version) + [0]
    case HelloResponse(version, _) => U16(version) + [0]
    case Goodbye(keepWindow) => U16(keepWindow) + [0]
    case VerifyV4Request(v, _, _, _) => [v.flags, v.roaResSrc, v.bgpsecResSrc]
    case VerifyV6Request(v, _, _, _) => [v.flags, v.roaResSrc, v.bgpsecResSrc]
    case SignRequest(algorithm, blockType, _, _, _) => U16(algorithm) + [blockType]
    case VerifyNotification(resultType, roaResult, bgpsecResult, _, _) =>
      [resultType, roaResult, bgpsecResult]
    case SignatureNotification(_, _) => [0, 0, 0]
    case DeleteUpdate(keepWindow, _) => U16(keepWindow) + [0]
    case PeerChange(changeType, _) => [0, 0, changeType]
    case SyncRequest => [0, 0, 0]
    case Error(code) => U16(ErrorCodeValue(code)) + [0]
  }

  /** Bytes 8..15 of a verify request: defaults, `zero`, prefix length, token. */
  function VerifyWord(v: VerifyHeader): (r: seq<byte>)
    ensures |r| == 8
  {
    [v.roaDefRes, v.bgpsecDefRes, 0, v.prefixLen] + U32(v.requestToken)
  }

  /** Everything after the basic header: the rest of the fixed fields, then
      the variable tail. Its size is what the packed struct and the tail
      demand. */
  function Body(p: Pdu): (r: seq<byte>)
    requires WellFormed(p)
    ensures HeaderSize + |r| == Size(p)
  {
    match p
    case Hello(_, proxyIdentifier, asn, peers) =>
      U32(proxyIdentifier) + U32(asn) + U32(|peers|) + PeerBytes(peers)
    case HelloResponse(_, proxyIdentifier) => U32(proxyIdentifier)
    case Goodbye(_) => []
    case VerifyV4Request(v, prefix, originAS, data) =>
      VerifyWord(v) + prefix + U32(originAS) + U32(|data|) + data
    case VerifyV6Request(v, prefix, originAS, data) =>
      VerifyWord(v) + prefix + U32(originAS) + U32(|data|) + data
    case SignRequest(_, _, updateIdentifier, prependCounter, peerAS) =>
      U32(updateIdentifier) + U32(prependCounter) + U32(peerAS)
    case VerifyNotification(_, _, _, requestToken, updateID) =>
      U32(requestToken) + U32(updateID)
    case SignatureNotification(updateIdentifier, data) =>
      U32(updateIdentifier) + U32(|data|) + data
    case DeleteUpdate(_, updateIdentifier) => U32(updateIdentifier)
    case PeerChange(_, peerAS) => U32(peerAS)
    case SyncRequest => []
    case Error(_) => []
  }

  /** The wire form of a PDU: type byte, three type-specific bytes, the total
      length, then the body. */
  function Encode(p: Pdu): (r: seq<byte>)
    requires WellFormed(p)
    ensures |r| == Size(p)
  {
    [TypeCode(TypeOf(p))] + Mid(p) + U32(HeaderSize + |Body(p)|) + Body(p)
  }

  // ---------------------------------------------------------------- decoding

  /** What the basic header of any PDU says: its type code and declared length. */
  datatype Header = Header(code: uint8, length: uint32)

  /** Reads the basic header, or reports how many more bytes it needs;
      never reads past the buffer. */
  function ReadHeader(s: seq<byte>): (r: Result<Header, DecodeError>)
    ensures |s| < HeaderSize <==> r.Failure?
    ensures r.Failure? ==> r.error == InsufficientData(HeaderSize - |s|)
    ensures r.Success? ==> r.value.code == s[0] && U32(r.value.length) == s[4..8]
  {
    if |s| < HeaderSize then Failure(InsufficientData(HeaderSize - |s|))
    else
      U32Canonical(s, 4);
      Success(Header(s[0], U32At(s, 4)))
  }

  /** The total length a PDU of type t must declare, read from the element
      count that ends its fixed part. */
  function ExpectedLength(t: PduType, s: seq<byte>): (n: nat)
    requires t.OnWire() && FixedSize(t) <= |s|
    ensures FixedSize(t) <= n
    ensures HasTail(t) ==> TailFits(t, n)
  {
    if HasTail(t) then FixedSize(t) + U32At(s, FixedSize(t) - 4) * ElementSize(t)
    else FixedSize(t)
  }

  /** The variable tail of a frame whose declared length has been checked. */
  function TailOf(t: PduType, frame: seq<byte>): (r: seq<byte>)
    requires FixedSize(t) <= |frame|
    ensures |r| == |frame| - FixedSize(t)
  {
    frame[FixedSize(t)..]
  }

  /** The peer ASNs stored 4 bytes each in s. */
  function ReadPeers(s: seq<byte>): (r: seq<uint32>)
    requires |s| % 4 == 0
    ensures 4 * |r| == |s|
  {
    if s == [] then [] else [U32At(s, 0)] + ReadPeers(s[4..])
  }

  /** The verify-request fields of bytes 1..3 and 8..15 of a frame. */
  function ReadVerifyHeader(f: seq<byte>): VerifyHeader
    requires 16 <= |f|
  {
    VerifyHeader(f[1], f[2], f[3], f[8], f[9], f[11], U32At(f, 12))
  }

  /** Decodes one complete frame of a type with a variable tail, whose
      declared length has been checked against its element count. */
  function DecodeTailed(t: PduType, f: seq<byte>): (r: Pdu)
    requires HasTail(t) && FixedSize(t) <= |f| && |f| == ExpectedLength(t, f)
    ensures TypeOf(r) == t && Size(r) == |f|
  {
    match t
    case Hello =>
      Pdu.Hello(U16At(f, 1), U32At(f, 8), U32At(f, 12), ReadPeers(TailOf(t, f)))
    case VerifyV4Request =>
      Pdu.VerifyV4Request(ReadVerifyHeader(f), f[16..20], U32At(f, 20), TailOf(t, f))
    case VerifyV6Request =>
      Pdu.VerifyV6Request(ReadVerifyHeader(f), f[16..32], U32At(f, 32), TailOf(t, f))
    case SignatureNotification =>
      Pdu.SignatureNotification(U32At(f, 8), TailOf(t, f))
  }

  /** Decodes one complete frame of a fixed-size type; only an ERROR whose
      code is outside the closed set fails. */
  function DecodeFixed(t: PduType, f: seq<byte>): (r: Result<Pdu, DecodeError>)
    requires t.OnWire() && !HasTail(t) && |f| == FixedSize(t)
    ensures r.Success? ==> TypeOf(r.value) == t && Size(r.value) == |f|
    ensures r.Failure? <==> t == PduType.Error && U16At(f, 1) > 5
  {
    match t
    case HelloResponse => Success(Pdu.HelloResponse(U16At(f, 1), U32At(f, 8)))
    case Goodbye => Success(Pdu.Goodbye(U16At(f, 1)))
    case SignRequest =>
      Success(Pdu.SignRequest(U16At(f, 1), f[3], U32At(f, 8), U32At(f, 12), U32At(f, 16)))
    case VerifyNotification =>
      Success(Pdu.VerifyNotification(f[1], f[2], f[3], U32At(f, 8), U32At(f, 12)))
    case DeleteUpdate => Success(Pdu.DeleteUpdate(U16At(f, 1), U32At(f, 8)))
    case PeerChange => Success(Pdu.PeerChange(f[3], U32At(f, 8)))
    case SyncRequest => Success(Pdu.SyncRequest)
    case Error =>
      match ErrorCodeOf(U16At(f, 1))
      case Some(code) => Success(Pdu.Error(code))
      case None => Failure(Malformed(ErrorCodeOutOfRange(U16At(f, 1))))
  }

  /** Decodes one complete frame whose type is known and whose declared
      length has been checked against its element count. */
  function DecodeFrame(t: PduType, f: seq<byte>): (r: Result<Pdu, DecodeError>)
    requires t.OnWire() && FixedSize(t) <= |f| && |f| == ExpectedLength(t, f)
    ensures r.Success? ==> TypeOf(r.value) == t && Size(r.value) == |f|
  {
    if HasTail(t) then Success(DecodeTailed(t, f)) else DecodeFixed(t, f)
  }

  /** Decodes the PDU at the start of s. The declared length is authoritative:
      it must equal the fixed size plus the tail the element count announces,
      and bytes after it are not read. A length no PDU of the type can have
      (one other than a fixed-size type's size, or one that would cut a
      HELLO's peer list inside a peer) is rejected as soon as the header is
      in; a tailed type's length is checked against its count once that is in. */
  function Decode(s: seq<byte>): (r: Result<Pdu, DecodeError>)
    ensures r.Success? ==> HeaderSize <= |s| && TypeOf(r.value) == TypeOfCode(s[0]) &&
                           Size(r.value) == U32At(s, 4) <= |s|
  {
    var h :- ReadHeader(s);
    var t := TypeOfCode(h.code);
    if !t.OnWire() then Failure(UnknownPduType(h.code))
    else if h.length < FixedSize(t) || (!HasTail(t) && h.length != FixedSize(t)) then
      Failure(Malformed(LengthMismatch(h.length, FixedSize(t))))
    else if HasTail(t) && !TailFits(t, h.length) then Failure(Malformed(PartialElement(h.length)))
    else if |s| < FixedSize(t) then Failure(InsufficientData(FixedSize(t) - |s|))
    else
      var expected := ExpectedLength(t, s);
      if h.length != expected then Failure(Malformed(LengthMismatch(h.length, expected)))
      else if |s| < h.length then Failure(InsufficientData(h.length - |s|))
      else DecodeFrame(t, s[..h.length])
  }
}

=== FILE: framing.dfy ===
/**
 Framing properties of the codec: what the basic header of an encoding says,
 which buffers the decoder rejects and why, and that a decoded PDU occupies
 exactly the bytes its header declares.
 */
module Framing {
  import opened Results
  import opened Bytes
  import opened Protocol
  import opened Layout
  import opened Pdus
  import opened Codec
  import opened RoundTrip

  /** The basic header of an encoding names the PDU's type and its total
      length, which is the size of the packed struct plus its tail. */
  lemma HeaderOfEncoding(p: Pdu)
    requires WellFormed(p)
    ensures ReadHeader(Encode(p)) == Success(Header(TypeCode(TypeOf(p)), Size(p)))
    ensures TypeOfCode(ReadHeader(Encode(p)).value.code) == TypeOf(p)
  {
    var e := Encode(p);
    assert e[4..8] == U32(HeaderSize + |Body(p)|);
    U32AtSlice(e, 4, Size(p));
    TypeCodeBijective(TypeOf(p), TypeOf(p));
  }

  /** A buffer too short for the basic header asks for exactly the missing
      bytes; one whose type byte is 12 or more is rejected as an unknown type,
      and no known type byte is ever rejected that way. */
  lemma RejectsShortOrUnknown(s: seq<byte>)
    ensures |s| < HeaderSize ==> Decode(s) == Failure(InsufficientData(HeaderSize - |s|))
    ensures HeaderSize <= |s| ==>
      (Decode(s) == Failure(UnknownPduType(s[0])) <==> s[0] >= 12)
    ensures (Decode(s).Failure? && Decode(s).error.UnknownPduType?) ==>
      HeaderSize <= |s| && s[0] >= 12
  {
  }

  /** A wrong declared length is reported as malformed as soon as it can be
      known. A length no PDU of the type can have is rejected once the basic
      header is in: a fixed-size type's length must be its size, and a tailed
      type's must leave a whole number of elements after the fixed part. A
      length that disagrees with the element count is rejected once the
      fixed part is in. A buffer is asked for more bytes only while its
      declared length is still possible for its type. */
  lemma WrongLengthIsMalformed(s: seq<byte>)
    requires HeaderSize <= |s| && TypeOfCode(s[0]).OnWire()
    ensures var t := TypeOfCode(s[0]);
            !HasTail(t) && U32At(s, 4) != FixedSize(t) ==>
              Decode(s) == Failure(Malformed(LengthMismatch(U32At(s, 4), FixedSize(t))))
    ensures var t := TypeOfCode(s[0]);
            HasTail(t) && FixedSize(t) <= U32At(s, 4) && !TailFits(t, U32At(s, 4)) ==>
              Decode(s) == Failure(Malformed(PartialElement(U32At(s, 4))))
    ensures var t := TypeOfCode(s[0]);
            FixedSize(t) <= |s| && U32At(s, 4) != ExpectedLength(t, s) ==>
              Decode(s).Failure? && Decode(s).error.Malformed?
    ensures var t := TypeOfCode(s[0]);
            Decode(s).Failure? && Decode(s).error.InsufficientData? ==>
              FixedSize(t) <= U32At(s, 4) &&
              (if HasTail(t) then TailFits(t, U32At(s, 4)) else U32At(s, 4) == FixedSize(t))
  {
    U32Canonical(s, 4);
  }

  /** A successful decode consumed exactly the declared length: the type byte
      and the length field of s describe the PDU, the PDU is well formed, and
      the frame alone decodes to the same PDU. */
  lemma DecodedFrame(s: seq<byte>, v: Pdu)
    requires Decode(s) == Success(v)
    ensures WellFormed(v) && Size(v) <= |s|
    ensures s[0] == TypeCode(TypeOf(v)) && U32At(s, 4) == Size(v)
    ensures FixedSize(TypeOf(v)) <= |s| && ExpectedLength(TypeOf(v), s) == Size(v)
    ensures Decode(s[..Size(v)]) == Success(v)
  {
    var t := TypeOfCode(s[0]);
    var len := U32At(s, 4);
    U32Canonical(s, 4);
    var f := s[..len];
    assert f[4..8] == s[4..8];
    U32AtSlice(f, 4, len);
    ExpectedLengthOfPrefix(t, s, len);
    DecodeAccepts(f, t, len);
    assert f[..len] == f;
  }

  /** Bytes after the declared length are never read: appending anything to
      a buffer that decodes leaves the result unchanged. */
  lemma DecodeIgnoresTrailing(s: seq<byte>, v: Pdu, rest: seq<byte>)
    requires Decode(s) == Success(v)
    ensures Decode(s + rest) == Success(v)
  {
    DecodedFrame(s, v);
    var t := TypeOf(v);
    var len := Size(v);
    var u := s + rest;
    TypeCodeBijective(t, t);
    assert u[..|s|] == s;
    assert u[4..8] == s[4..8];
    U32Canonical(s, 4);
    U32AtSlice(u, 4, len);
    ExpectedLengthOfPrefix(t, u, |s|);
    ExpectedLengthOfPrefix(t, s, len);
    DecodeAccepts(s, t, len);
    DecodeAccepts(u, t, len);
    assert u[..len] == s[..len];
  }

  /** The element count of a frame is untouched by a change of the bytes
      before it. */
  lemma CountUnchanged(t: PduType, s: seq<byte>, u: seq<byte>)
    requires t.OnWire() && FixedSize(t) <= |s| == |u| && s[8..] == u[8..]
    ensures ExpectedLength(t, s) == ExpectedLength(t, u)
  {
    if HasTail(t) {
      var k := FixedSize(t) - 4;
      assert s[k] == s[8..][k - 8] == u[k];
      assert s[k + 1] == s[8..][k - 7] == u[k + 1];
      assert s[k + 2] == s[8..][k - 6] == u[k + 2];
      assert s[k + 3] == s[8..][k - 5] == u[k + 3];
    }
  }

  /** In a buffer that decodes, changing the declared length to anything but
      the PDU's size makes it malformed; only the true size is accepted. */
  lemma Relength(s: seq<byte>, v: Pdu, len: uint32)
    requires Decode(s) == Success(v)
    ensures var u := s[..4] + U32(len) + s[8..];
            (Decode(u).Success? <==> len == Size(v)) &&
            (len != Size(v) ==> Decode(u).Failure? && Decode(u).error.Malformed?)
  {
    var u := s[..4] + U32(len) + s[8..];
    DecodedFrame(s, v);
    U32Canonical(s, 4);
    if len == Size(v) {
      assert u == s;
    } else {
      var t := TypeOf(v);
      assert u[0] == s[0];
      assert u[4..8] == U32(len);
      U32AtSlice(u, 4, len);
      TypeCodeBijective(t, t);
      assert u[8..] == s[8..];
      if FixedSize(t) <= len {
        CountUnchanged(t, u, s);
      }
    }
  }

  /** Changing the declared length of an encoding to anything but its true
      size makes the PDU malformed. */
  lemma LengthTamper(p: Pdu, len: uint32)
    requires WellFormed(p)
    ensures var e := Encode(p);
            var s := e[..4] + U32(len) + e[8..];
            (Decode(s).Success? <==> len == Size(p)) &&
            (len != Size(p) ==> Decode(s).Failure? && Decode(s).error.Malformed?)
  {
    RoundTripExact(p);
    Relength(Encode(p), p, len);
  }
}

=== FILE: layout.dfy ===
/**
 The packed byte layouts of the SRx proxy PDUs, one field list per struct.

 Every struct is packed (no padding), so a field's offset is the sum of the
 widths before it and a PDU's fixed size is the sum of all its widths.
 Addresses are opaque: IPv4Address is 4 bytes and IPv6Address 16 bytes.
 An SRxUpdateID is a 32-bit unsigned value (4 bytes). The zero-size placeholder
 structs that mark the start of a variable tail take no room and are not
 listed.
 */
module Layout {
  import opened Protocol

  /** What a field holds: the type byte, the total length, the element count
      of the trailing variable region, reserved bytes, or data. */
  datatype FieldKind = TypeByte | TotalLength | Count | Reserved | Data

  /** A field `width` bytes wide at byte `offset` of its struct. */
  datatype Field = Field(offset: nat, width: nat, kind: FieldKind)

  /** A packed struct: its fields in wire order. */
  datatype Struct = End | Then(field: Field, rest: Struct)

  /** The first n fields of a struct. */
  function Take(l: Struct, n: nat): Struct {
    if n == 0 then End
    else match l
      case End => End
      case Then(f, r) => Then(f, Take(r, n - 1))
  }

  /** Total width of a packed struct. */
  function Width(l: Struct): nat {
    match l
    case End => 0
    case Then(f, r) => f.width + Width(r)
  }

  /** Each field starts where the one before it ends: no padding. */
  predicate Contiguous(l: Struct) {
    match l
    case End => true
    case Then(f, r) => (r.Then? ==> r.field.offset == f.offset + f.width) && Contiguous(r)
  }

  /** Runs of bytes in ascending order: `width` bytes from offset `start`. */
  datatype Runs = NoRun | Run(start: nat, width: nat, next: Runs)

  /** Byte i lies in one of the runs. */
  predicate InRuns(rs: Runs, i: int) {
    match rs
    case NoRun => false
    case Run(start, width, next) => start <= i < start + width || InRuns(next, i)
  }

  /** The byte runs of the fields of kind k. */
  function RunsOf(l: Struct, k: FieldKind): Runs {
    match l
    case End => NoRun
    case Then(f, r) =>
      if f.kind == k then Run(f.offset, f.width, RunsOf(r, k)) else RunsOf(r, k)
  }

  /** SRXPROXY_BasicHeader, the shape every PDU starts with. */
  const BasicHeader: Struct :=
    Then(Field(0, 1, TypeByte),       // type
    Then(Field(1, 2, Reserved),       // reserved1
    Then(Field(3, 1, Reserved),       // reserved2
    Then(Field(4, 4, TotalLength),    // length
    End))))

  /** SRXRPOXY_BasicHeader_VerifyRequest, the prefix both verify requests share. */
  const VerifyRequestHeader: Struct :=
    Then(Field(0, 1, TypeByte),       // type
    Then(Field(1, 1, Data),           // flags
    Then(Field(2, 1, Data),           // roaResSrc
    Then(Field(3, 1, Data),           // bgpsecResSrc
    Then(Field(4, 4, TotalLength),    // length
    Then(Field(8, 1, Data),           // roaDefRes
    Then(Field(9, 1, Data),           // bgpsecDefRes
    Then(Field(10, 1, Reserved),      // zero
    Then(Field(11, 1, Data),          // prefixLen
    Then(Field(12, 4, Data),          // requestToken
    End))))))))))

  /** SRXPROXY_HELLO. */
  const HelloStruct: Struct :=
    Then(Field(0, 1, TypeByte),       // type
    Then(Field(1, 2, Data),           // version
    Then(Field(3, 1, Reserved),       // zero
    Then(Field(4, 4, TotalLength),    // length
    Then(Field(8, 4, Data),           // proxyIdentifier
    Then(Field(12, 4, Data),          // asn
    Then(Field(16, 4, Count),         // noPeers
    End)))))))

  /** SRXPROXY_HELLO_RESPONSE. */
  const HelloResponseStruct: Struct :=
    Then(Field(0, 1, TypeByte),       // type
    Then(Field(1, 2, Data),           // version
    Then(Field(3, 1, Reserved),       // zero
    Then(Field(4, 4, TotalLength),    // length
    Then(Field(8, 4, Data),           // proxyIdentifier
    End)))))

  /** SRXPROXY_GOODBYE. */
  const GoodbyeStruct: Struct :=
    Then(Field(0, 1, TypeByte),       // type
    Then(Field(1, 2, Data),           // keepWindow
    Then(Field(3, 1, Reserved),       // zero
    Then(Field(4, 4, TotalLength),    // length
    End))))

  /** SRXPROXY_VERIFY_V4_REQUEST. */
  const VerifyV4RequestStruct: Struct :=
    Then(Field(0, 1, TypeByte),       // type
    Then(Field(1, 1, Data),           // flags
    Then(Field(2, 1, Data),           // roaResSrc
    Then(Field(3, 1, Data),           // bgpsecResSrc
    Then(Field(4, 4, TotalLength),    // length
    Then(Field(8, 1, Data),           // roaDefRes
    Then(Field(9, 1, Data),           // bgpsecDefRes
    Then(Field(10, 1, Reserved),      // zero
    Then(Field(11, 1, Data),          // prefixLen
    Then(Field(12, 4, Data),          // requestToken
    Then(Field(16, 4, Data),          // prefixAddress
    Then(Field(20, 4, Data),          // originAS
    Then(Field(24, 4, Count),         // bgpsecLength
    End)))))))))))))

  /** SRXPROXY_VERIFY_V6_REQUEST. */
  const VerifyV6RequestStruct: Struct :=
    Then(Field(0, 1, TypeByte),       // type
    Then(Field(1, 1, Data),           // flags
    Then(Field(2, 1, Data),           // roaResSrc
    Then(Field(3, 1, Data),           // bgpsecResSrc
    Then(Field(4, 4, TotalLength),    // length
    Then(Field(8, 1, Data),           // roaDefRes
    Then(Field(9, 1, Data),           // bgpsecDefRes
    Then(Field(10, 1, Reserved),      // zero
    Then(Field(11, 1, Data),          // prefixLen
    Then(Field(12, 4, Data),          // requestToken
    Then(Field(16, 16, Data),         // prefixAddress
    Then(Field(32, 4, Data),          // originAS
    Then(Field(36, 4, Count),         // bgpsecLength
    End)))))))))))))

  /** SRXPROXY_SIGN_REQUEST. */
  const SignRequestStruct: Struct :=
    Then(Field(0, 1, TypeByte),       // type
    Then(Field(1, 2, Data),           // algorithm
    Then(Field(3, 1, Data),           // blockType
    Then(Field(4, 4, TotalLength),    // length
    Then(Field(8, 4, Data),           // updateIdentifier
    Then(Field(12, 4, Data),          // prependCounter
    Then(Field(16, 4, Data),          // peerAS
    End)))))))

  /** SRXPROXY_VERIFY_NOTIFICATION. */
  const VerifyNotificationStruct: Struct :=
    Then(Field(0, 1, TypeByte),       // type
    Then(Field(1, 1, Data),           // resultType
    Then(Field(2, 1, Data),           // roaResult
    Then(Field(3, 1, Data),           // bgpsecResult
    Then(Field(4, 4, TotalLength),    // length
    Then(Field(8, 4, Data),           // requestToken
    Then(Field(12, 4, Data),          // updateID
    End)))))))

  /** SRXPROXY_SIGNATURE_NOTIFICATION. */
  const SignatureNotificationStruct: Struct :=
    Then(Field(0, 1, TypeByte),       // type
    Then(Field(1, 2, Reserved),       // reserved
    Then(Field(3, 1, Reserved),       // zero
    Then(Field(4, 4, TotalLength),    // length
    Then(Field(8, 4, Data),           // updateIdentifier
    Then(Field(12, 4, Count),         // bgpsecLength
    End))))))

  /** SRXPROXY_DELETE_UPDATE. */
  const DeleteUpdateStruct: Struct :=
    Then(Field(0, 1, TypeByte),       // type
    Then(Field(1, 2, Data),           // keepWindow
    Then(Field(3, 1, Reserved),       // zero
    Then(Field(4, 4, TotalLength),    // length
    Then(Field(8, 4, Data),           // updateIdentifier
    End)))))

  /** SRXPROXY_PEER_CHANGE. */
  const PeerChangeStruct: Struct :=
    Then(Field(0, 1, TypeByte),       // type
    Then(Field(1, 2, Reserved),       // reserved
    Then(Field(3, 1, Data),           // changeType
    Then(Field(4, 4, TotalLength),    // length
    Then(Field(8, 4, Data),           // peerAS
    End)))))

  /** SRXPROXY_SYNCH_REQUEST. */
  const SyncRequestStruct: Struct :=
    Then(Field(0, 1, TypeByte),       // type
    Then(Field(1, 2, Reserved),       // reserved
    Then(Field(3, 1, Reserved),       // zero
    Then(Field(4, 4, TotalLength),    // length
    End))))

  /** SRXPROXY_ERROR. */
  const ErrorStruct: Struct :=
    Then(Field(0, 1, TypeByte),       // type
    Then(Field(1, 2, Data),           // errorCode
    Then(Field(3, 1, Reserved),       // zero
    Then(Field(4, 4, TotalLength),    // length
    End))))

  /** The fixed fields of each packed PDU struct, in wire order. */
  function StructOf(t: PduType): Struct {
    match t
    case Hello => HelloStruct
    case HelloResponse => HelloResponseStruct
    case Goodbye => GoodbyeStruct
    case VerifyV4Request => VerifyV4RequestStruct
    case VerifyV6Request => VerifyV6RequestStruct
    case SignRequest => SignRequestStruct
    case VerifyNotification => VerifyNotificationStruct
    case SignatureNotification => SignatureNotificationStruct
    case DeleteUpdate => DeleteUpdateStruct
    case PeerChange => PeerChangeStruct
    case SyncRequest => SyncRequestStruct
    case Error => ErrorStruct
    case Unknown => BasicHeader
  }

  /** The size of the basic header every PDU starts with. */
  const HeaderSize: nat := 8

  /** The size of a PDU type's fixed part: its packed struct without the
      variable tail (FixedSizeIsPacked checks it against the field widths). */
  function FixedSize(t: PduType): nat {
    match t
    case Hello => 20
    case HelloResponse => 12
    case Goodbye => 8
    case VerifyV4Request => 28
    case VerifyV6Request => 40
    case SignRequest => 20
    case VerifyNotification => 16
    case SignatureNotification => 16
    case DeleteUpdate => 12
    case PeerChange => 12
    case SyncRequest => 8
    case Error => 8
    case Unknown => HeaderSize
  }

  /** Byte i of a PDU of type t is reserved: written as 0 and ignored on
      read. These are the `zero` byte at 3 of HELLO, HELLO_RESPONSE, GOODBYE,
      DELETE_UPDATE and ERROR; the `zero` byte at 10 of both verify requests;
      bytes 1..3 of SIGNATURE_NOTIFICATION and SYNC_REQUEST (and of the basic
      header); bytes 1..2 of PEER_CHANGE; none in SIGN_REQUEST and
      VERIFY_NOTIFICATION (ReservedIsPacked checks it against the structs). */
  predicate IsReserved(t: PduType, i: int) {
    match t
    case Hello | HelloResponse | Goodbye | DeleteUpdate | Error => i == 3
    case VerifyV4Request | VerifyV6Request => i == 10
    case SignatureNotification | SyncRequest | Unknown => 1 <= i <= 3
    case PeerChange => 1 <= i <= 2
    case SignRequest | VerifyNotification => false
  }

  /** PDU types whose struct ends in a variable tail. */
  predicate HasTail(t: PduType) {
    t in {Hello, VerifyV4Request, VerifyV6Request, SignatureNotification}
  }

  /** Bytes per element of the variable tail: 4-byte peer ASNs after a HELLO,
      single bytes of BGPSEC data after the other three. */
  function ElementSize(t: PduType): nat
    requires HasTail(t)
  {
    if t == Hello then 4 else 1
  }

  /** A length that leaves a whole number of tail elements after the fixed
      part. Only a HELLO's elements are wider than a byte, so only a HELLO's
      length is constrained: 20 plus a multiple of 4. */
  predicate TailFits(t: PduType, n: nat)
    requires HasTail(t) && FixedSize(t) <= n
  {
    t != Hello || (n - 20) % 4 == 0
  }

  /** TailFits says exactly that the tail is a whole number of elements. */
  lemma TailFitsWholeElements(t: PduType, n: nat)
    requires HasTail(t) && FixedSize(t) <= n
    ensures TailFits(t, n) <==> (n - FixedSize(t)) % ElementSize(t) == 0
  {
  }

  /** Both verify requests start with SRXRPOXY_BasicHeader_VerifyRequest. */
  lemma VerifyRequestsSharePrefix()
    ensures Take(StructOf(VerifyV4Request), 10) == VerifyRequestHeader
    ensures Take(StructOf(VerifyV6Request), 10) == VerifyRequestHeader
  {
  }

  /** The two shared prefixes are 8 and 16 bytes long. */
  lemma PrefixWidths()
    ensures Width(BasicHeader) == HeaderSize
    ensures Width(VerifyRequestHeader) == 16
  {
  }

  /** Every struct is packed from offset 0, and each fixed size is the sum
      of the widths of its packed struct's fields. */
  lemma FixedSizeIsPacked(t: PduType)
    ensures StructOf(t).Then? && StructOf(t).field.offset == 0
    ensures Contiguous(StructOf(t))
    ensures FixedSize(t) == Width(StructOf(t))
  {
    match t
    case Hello => {}
    case HelloResponse => {}
    case Goodbye => {}
    case VerifyV4Request => {}
    case VerifyV6Request => {}
    case SignRequest => {}
    case VerifyNotification => {}
    case SignatureNotification => {}
    case DeleteUpdate => {}
    case PeerChange => {}
    case SyncRequest => {}
    case Error => {}
    case Unknown => {}
  }

  /** Every struct starts with the basic header's shape: the type byte at 0,
      three type-specific bytes, and the 32-bit total length at 4..7. */
  lemma CommonHeaderShape(t: PduType)
    ensures RunsOf(StructOf(t), TypeByte) == Run(0, 1, NoRun)
    ensures RunsOf(StructOf(t), TotalLength) == Run(4, 4, NoRun)
    ensures HeaderSize <= FixedSize(t)
  {
    match t
    case Hello => {}
    case HelloResponse => {}
    case Goodbye => {}
    case VerifyV4Request => {}
    case VerifyV6Request => {}
    case SignRequest => {}
    case VerifyNotification => {}
    case SignatureNotification => {}
    case DeleteUpdate => {}
    case PeerChange => {}
    case SyncRequest => {}
    case Error => {}
    case Unknown => {}
  }

  /** The element count of a variable tail is the last 4 bytes of the fixed
      part, and only the four tailed structs have one. */
  lemma CountIsLastField(t: PduType)
    ensures RunsOf(StructOf(t), Count) ==
      if HasTail(t) then Run(FixedSize(t) - 4, 4, NoRun) else NoRun
  {
    match t
    case Hello => {}
    case HelloResponse => {}
    case Goodbye => {}
    case VerifyV4Request => {}
    case VerifyV6Request => {}
    case SignRequest => {}
    case VerifyNotification => {}
    case SignatureNotification => {}
    case DeleteUpdate => {}
    case PeerChange => {}
    case SyncRequest => {}
    case Error => {}
    case Unknown => {}
  }

  /** The reserved fields of each packed struct, as byte runs. */
  lemma ReservedRuns(t: PduType)
    ensures RunsOf(StructOf(t), Reserved) == match t
      case Hello | HelloResponse | Goodbye | DeleteUpdate | Error => Run(3, 1, NoRun)
      case VerifyV4Request | VerifyV6Request => Run(10, 1, NoRun)
      case SignatureNotification | SyncRequest | Unknown => Run(1, 2, Run(3, 1, NoRun))
      case PeerChange => Run(1, 2, NoRun)
      case SignRequest | VerifyNotification => NoRun
  {
    match t
    case Hello => {}
    case HelloResponse => {}
    case Goodbye => {}
    case VerifyV4Request => {}
    case VerifyV6Request => {}
    case SignRequest => {}
    case VerifyNotification => {}
    case SignatureNotification => {}
    case DeleteUpdate => {}
    case PeerChange => {}
    case SyncRequest => {}
    case Error => {}
    case Unknown => {}
  }

  /** The reserved bytes are exactly those the Reserved fields of the packed
      struct cover. */
  lemma ReservedIsPacked(t: PduType, i: int)
    ensures IsReserved(t, i) <==> InRuns(RunsOf(StructOf(t), Reserved), i)
  {
    ReservedRuns(t);
    match t
    case Hello | HelloResponse | Goodbye | DeleteUpdate | Error =>
    case VerifyV4Request | VerifyV6Request =>
    case SignatureNotification | SyncRequest | Unknown =>
      assert InRuns(Run(3, 1, NoRun), i) <==> i == 3;
      assert InRuns(Run(1, 2, Run(3, 1, NoRun)), i) <==> 1 <= i <= 3;
    case PeerChange =>
    case SignRequest | VerifyNotification =>
  }
}

=== FILE: pdu.dfy ===
/**
 The twelve SRx proxy PDUs as values.

 A PDU value holds the meaningful fields of its packed struct. The type
 byte and the total length are implied by the constructor and the contents,
 reserved and `zero` bytes carry nothing, and the element counts `noPeers`
 and `bgpsecLength` are the lengths of the peer list and the BGPSEC block.
 */
module Pdus {
  import opened Bytes
  import opened Protocol
  import opened Layout

  /** IPv4Address: four opaque bytes. */
  type IPv4Address = s: seq<byte> | |s| == 4 witness [0, 0, 0, 0]

  /** IPv6Address: sixteen opaque bytes. */
  type IPv6Address = s: seq<byte> | |s| == 16
    witness [0, 0, 0, 0, 0, 0, 0, 0, 0, 0, 0, 0, 0, 0, 0, 0]

  /** The fields SRXRPOXY_BasicHeader_VerifyRequest gives both verify requests,
      apart from the type, the length and the `zero` byte. */
  datatype VerifyHeader = VerifyHeader(
    flags: uint8,
    roaResSrc: uint8,
    bgpsecResSrc: uint8,
    roaDefRes: uint8,
    bgpsecDefRes: uint8,
    prefixLen: uint8,
    requestToken: uint32)

  datatype Pdu =
    | Hello(version: uint16, proxyIdentifier: uint32, asn: uint32, peers: seq<uint32>)
    | HelloResponse(version: uint16, proxyIdentifier: uint32)
    | Goodbye(keepWindow: uint16)
    | VerifyV4Request(verify: VerifyHeader, prefix4: IPv4Address, originAS: uint32,
                      bgpsecData: seq<byte>)
    | VerifyV6Request(verify: VerifyHeader, prefix6: IPv6Address, originAS: uint32,
                      bgpsecData: seq<byte>)
    | SignRequest(algorithm: uint16, blockType: uint8, updateIdentifier: uint32,
                  prependCounter: uint32, peerAS: uint32)
    | VerifyNotification(resultType: uint8, roaResult: uint8, bgpsecResult: uint8,
                         requestToken: uint32, updateID: uint32)
    | SignatureNotification(updateIdentifier: uint32, bgpsecData: seq<byte>)
    | DeleteUpdate(keepWindow: uint16, updateIdentifier: uint32)
    | PeerChange(changeType: uint8, peerAS: uint32)
    | SyncRequest
    | Error(errorCode: ErrorCode)

  /** The PDU type of a PDU value. */
  function TypeOf(p: Pdu): (t: PduType)
    ensures t.OnWire()
  {
    match p
    case Hello(_, _, _, _) => PduType.Hello
    case HelloResponse(_, _) => PduType.HelloResponse
    case Goodbye(_) => PduType.Goodbye
    case VerifyV4Request(_, _, _, _) => PduType.VerifyV4Request
    case VerifyV6Request(_, _, _, _) => PduType.VerifyV6Request
    case SignRequest(_, _, _, _, _) => PduType.SignRequest
    case VerifyNotification(_, _, _, _, _) => PduType.VerifyNotification
    case SignatureNotification(_, _) => PduType.SignatureNotification
    case DeleteUpdate(_, _) => PduType.DeleteUpdate
    case PeerChange(_, _) => PduType.PeerChange
    case SyncRequest => PduType.SyncRequest
    case Error(_) => PduType.Error
  }

  /** The number of elements in the variable tail: `noPeers` or `bgpsecLength`. */
  function TailCount(p: Pdu): nat {
    match p
    case Hello(_, _, _, peers) => |peers|
    case VerifyV4Request(_, _, _, data) => |data|
    case VerifyV6Request(_, _, _, data) => |data|
    case SignatureNotification(_, data) => |data|
    case _ => 0
  }

  /** The size of the variable tail in bytes: `noPeers` peers of 4 bytes, or
      `bgpsecLength` single bytes. */
  function TailSize(p: Pdu): (n: nat)
    ensures n == if HasTail(TypeOf(p)) then TailCount(p) * ElementSize(TypeOf(p)) else 0
  {
    match p
    case Hello(_, _, _, peers) => 4 * |peers|
    case VerifyV4Request(_, _, _, data) => |data|
    case VerifyV6Request(_, _, _, data) => |data|
    case SignatureNotification(_, data) => |data|
    case _ => 0
  }

  /** The total length a PDU occupies on the wire. */
  function Size(p: Pdu): nat {
    FixedSize(TypeOf(p)) + TailSize(p)
  }

  /** A PDU fits the format: its total length fits the 32-bit `length` field
      (and hence its element count fits `noPeers` / `bgpsecLength`). */
  predicate WellFormed(p: Pdu)
    ensures !HasTail(TypeOf(p)) ==> WellFormed(p)
    ensures p.Hello? ==> (WellFormed(p) <==> |p.peers| < 0x3FFF_FFFB)
    ensures p.VerifyV4Request? ==> (WellFormed(p) <==> |p.bgpsecData| < 0xFFFF_FFE4)
    ensures p.VerifyV6Request? ==> (WellFormed(p) <==> |p.bgpsecData| < 0xFFFF_FFD8)
    ensures p.SignatureNotification? ==> (WellFormed(p) <==> |p.bgpsecData| < 0xFFFF_FFF0)
  {
    Size(p) < 0x1_0000_0000
  }
}

=== FILE: protocol.dfy ===
/**
 Constants and closed enumerations of the SRx proxy protocol: the protocol
 version, the verify-request flag bits, the peer-change types, the request
 token range, the six error codes and the PDU type codes.
 */
module Protocol {
  import opened Bytes
  import opened Results

  /** Version of the protocol this format describes. */
  const SRX_PROTOCOL_VER: uint16 := 1

  /** The `algorithm` value of a SIGN_REQUEST reserved for unit tests. */
  const SRX_ALGORITHM_UNITTEST: uint16 := 0xFFFF

  /** Flag bits of the `flags` byte of a verify request. */
  const SRX_PROXY_FLAGS_VERIFY_PREFIX_ORIGIN: uint8 := 1
  const SRX_PROXY_FLAGS_VERIFY_PATH: uint8 := 2
  const SRX_PROXY_FLAGS_VERIFY_RECEIPT: uint8 := 128

  /** The `blockType` bit of a SIGN_REQUEST asking for the latest signature. */
  const SRX_PROXY_BLOCK_TYPE_LATEST_SIGNATURE: uint8 := 1

  /** Values of the `changeType` byte of a PEER_CHANGE. */
  const SRX_PROXY_PEER_CHANGE_TYPE_REMOVE: uint8 := 0
  const SRX_PROXY_PEER_CHANGE_TYPE_ADD: uint8 := 1

  /** Request tokens: 0 is reserved, real tokens lie in MIN..MAX. */
  const DONOTUSE_REQUEST_TOKEN: uint32 := 0
  const MIN_REQUEST_TOKEN: uint32 := 1
  const MAX_REQUEST_TOKEN: uint32 := 1000000

  /** A token that may correlate a verify request with its notification. */
  predicate ValidToken(t: uint32) {
    MIN_REQUEST_TOKEN <= t <= MAX_REQUEST_TOKEN
  }

  /** A flag byte has the single-bit flag `bit` set; other bits are ignored. */
  predicate HasFlag(flags: uint8, bit: uint8)
    requires bit in {SRX_PROXY_FLAGS_VERIFY_PREFIX_ORIGIN, SRX_PROXY_FLAGS_VERIFY_PATH,
                     SRX_PROXY_FLAGS_VERIFY_RECEIPT}
  {
    (flags / bit) % 2 == 1
  }

  /** The closed set of error codes an ERROR PDU carries. */
  datatype ErrorCode =
    | WrongVersion
    | DuplicateProxyId
    | InvalidPacket
    | InternalError
    | AlgoNotSupported
    | UpdateNotFound

  /** The numeric value of an error code on the wire. */
  function ErrorCodeValue(e: ErrorCode): (v: uint16)
    ensures v <= 5
  {
    match e
    case WrongVersion => 0
    case DuplicateProxyId => 1
    case InvalidPacket => 2
    case InternalError => 3
    case AlgoNotSupported => 4
    case UpdateNotFound => 5
  }

  /** The error code with numeric value v, if there is one. */
  function ErrorCodeOf(v: uint16): (r: Option<ErrorCode>)
    ensures r.Some? <==> v <= 5
    ensures r.Some? ==> ErrorCodeValue(r.value) == v
  {
    if v == 0 then Some(WrongVersion)
    else if v == 1 then Some(DuplicateProxyId)
    else if v == 2 then Some(InvalidPacket)
    else if v == 3 then Some(InternalError)
    else if v == 4 then Some(AlgoNotSupported)
    else if v == 5 then Some(UpdateNotFound)
    else None
  }

  /** The PDU types. `Unknown` is a local sentinel and never appears on the wire. */
  datatype PduType =
    | Hello
    | HelloResponse
    | Goodbye
    | VerifyV4Request
    | VerifyV6Request
    | SignRequest
    | VerifyNotification
    | SignatureNotification
    | DeleteUpdate
    | PeerChange
    | SyncRequest
    | Error
    | Unknown
  {
    /** Types that may be sent on the wire. */
    predicate OnWire() {
      !Unknown?
    }
  }

  /** The type code of each PDU type, as carried in byte 0 of every PDU. */
  function TypeCode(t: PduType): (c: uint8)
    ensures c <= 12
    ensures t.OnWire() <==> c < 12
  {
    match t
    case Hello => 0
    case HelloResponse => 1
    case Goodbye => 2
    case VerifyV4Request => 3
    case VerifyV6Request => 4
    case SignRequest => 5
    case VerifyNotification => 6
    case SignatureNotification => 7
    case DeleteUpdate => 8
    case PeerChange => 9
    case SyncRequest => 10
    case Error => 11
    case Unknown => 12
  }

  /** The PDU type a type byte names; every byte from 12 up names Unknown. */
  function TypeOfCode(c: uint8): (t: PduType)
    ensures c < 12 ==> TypeCode(t) == c
    ensures t.OnWire() <==> c < 12
  {
    match c
    case 0 => Hello
    case 1 => HelloResponse
    case 2 => Goodbye
    case 3 => VerifyV4Request
    case 4 => VerifyV6Request
    case 5 => SignRequest
    case 6 => VerifyNotification
    case 7 => SignatureNotification
    case 8 => DeleteUpdate
    case 9 => PeerChange
    case 10 => SyncRequest
    case 11 => Error
    case _ => Unknown
  }

  /** Type codes and PDU types are in one-to-one correspondence. */
  lemma TypeCodeBijective(t: PduType, u: PduType)
    ensures TypeOfCode(TypeCode(t)) == t
    ensures TypeCode(t) == TypeCode(u) ==> t == u
  {
  }

  /** Error codes and their numeric values are in one-to-one correspondence. */
  lemma ErrorCodeBijective(e: ErrorCode)
    ensures ErrorCodeOf(ErrorCodeValue(e)) == Some(e)
  {
  }

  /** The reserved token 0 is never valid, and the valid range is exactly 1..1000000. */
  lemma TokenRange(t: uint32)
    ensures !ValidToken(DONOTUSE_REQUEST_TOKEN)
    ensures ValidToken(t) <==> 1 <= t <= 1000000
  {
  }

  /** The three defined flags occupy distinct bits, so each can be set alone. */
  lemma FlagsDistinct()
    ensures HasFlag(SRX_PROXY_FLAGS_VERIFY_PREFIX_ORIGIN, SRX_PROXY_FLAGS_VERIFY_PREFIX_ORIGIN)
    ensures !HasFlag(SRX_PROXY_FLAGS_VERIFY_PREFIX_ORIGIN, SRX_PROXY_FLAGS_VERIFY_PATH)
    ensures !HasFlag(SRX_PROXY_FLAGS_VERIFY_PREFIX_ORIGIN, SRX_PROXY_FLAGS_VERIFY_RECEIPT)
    ensures HasFlag(SRX_PROXY_FLAGS_VERIFY_PATH, SRX_PROXY_FLAGS_VERIFY_PATH)
    ensures !HasFlag(SRX_PROXY_FLAGS_VERIFY_PATH, SRX_PROXY_FLAGS_VERIFY_PREFIX_ORIGIN)
    ensures !HasFlag(SRX_PROXY_FLAGS_VERIFY_PATH, SRX_PROXY_FLAGS_VERIFY_RECEIPT)
    ensures HasFlag(SRX_PROXY_FLAGS_VERIFY_RECEIPT, SRX_PROXY_FLAGS_VERIFY_RECEIPT)
    ensures !HasFlag(SRX_PROXY_FLAGS_VERIFY_RECEIPT, SRX_PROXY_FLAGS_VERIFY_PREFIX_ORIGIN)
    ensures !HasFlag(SRX_PROXY_FLAGS_VERIFY_RECEIPT, SRX_PROXY_FLAGS_VERIFY_PATH)
  {
  }

  /** Setting one defined flag bit in a flags byte that lacks it keeps the
      byte a byte, makes that flag seen, and leaves the other two defined
      flags as they were. */
  lemma SetFlag(f: uint8, b: uint8)
    requires b in {SRX_PROXY_FLAGS_VERIFY_PREFIX_ORIGIN, SRX_PROXY_FLAGS_VERIFY_PATH,
                   SRX_PROXY_FLAGS_VERIFY_RECEIPT}
    requires !HasFlag(f, b)
    ensures f + b < 0x100 && HasFlag(f + b, b)
    ensures b != SRX_PROXY_FLAGS_VERIFY_PREFIX_ORIGIN ==>
      (HasFlag(f + b, SRX_PROXY_FLAGS_VERIFY_PREFIX_ORIGIN) <==>
       HasFlag(f, SRX_PROXY_FLAGS_VERIFY_PREFIX_ORIGIN))
    ensures b != SRX_PROXY_FLAGS_VERIFY_PATH ==>
      (HasFlag(f + b, SRX_PROXY_FLAGS_VERIFY_PATH) <==> HasFlag(f, SRX_PROXY_FLAGS_VERIFY_PATH))
    ensures b != SRX_PROXY_FLAGS_VERIFY_RECEIPT ==>
      (HasFlag(f + b, SRX_PROXY_FLAGS_VERIFY_RECEIPT) <==>
       HasFlag(f, SRX_PROXY_FLAGS_VERIFY_RECEIPT))
  {
  }
}

=== FILE: reserved.dfy ===
/**
 Reserved and `zero` bytes: the encoder writes them as 0 and the decoder
 never reads them, so two buffers that differ only there decode alike.
 */
module Reserved {
  import opened Bytes
  import opened Protocol
  import opened Layout
  import opened Pdus
  import opened Codec
  import opened RoundTrip

  /** s and u have the same length and agree on every byte that is not
      reserved in the struct of type t. */
  predicate SameFields(t: PduType, s: seq<byte>, u: seq<byte>) {
    |s| == |u| && forall i :: 0 <= i < |s| && !IsReserved(t, i) ==> s[i] == u[i]
  }

  /** The frame f with every byte reserved for type t set to 0: what an
      encoder that writes reserved bytes as 0 produces. */
  function Zeroed(t: PduType, f: seq<byte>): (z: seq<byte>)
    ensures |z| == |f|
  {
    seq(|f|, i requires 0 <= i < |f| => if IsReserved(t, i) then 0 else f[i])
  }

  /** Bytes 1..3 of an encoding are Mid(p) and everything from byte 8 is
      Body(p). */
  lemma EncodeParts(p: Pdu)
    requires WellFormed(p)
    ensures Encode(p)[1..4] == Mid(p) && Encode(p)[8..] == Body(p)
  {
  }

  /** The reserved bytes among bytes 1..3 are 0 in Mid(p). */
  lemma MidZeroesReserved(p: Pdu, i: nat)
    requires 1 <= i <= 3 && IsReserved(TypeOf(p), i)
    ensures Mid(p)[i - 1] == 0
  {
  }

  /** Every reserved byte of an encoding is 0. */
  lemma EncodeZeroesReserved(p: Pdu, i: nat)
    requires WellFormed(p) && i < Size(p) && IsReserved(TypeOf(p), i)
    ensures Encode(p)[i] == 0
  {
    EncodeParts(p);
    var e := Encode(p);
    if i <= 3 {
      MidZeroesReserved(p, i);
      assert e[i] == e[1..4][i - 1];
    } else {
      assert i == 10 && (p.VerifyV4Request? || p.VerifyV6Request?);
      assert e[i] == e[8..][2] == VerifyWord(p.verify)[2];
    }
  }

  /** Reserved bytes only ever sit at positions 1, 2, 3 and 10, so frames
      with the same fields agree everywhere else. */
  lemma AgreeOutside(t: PduType, f: seq<byte>, g: seq<byte>)
    requires SameFields(t, f, g)
    ensures forall i :: 0 <= i < |f| && i != 1 && i != 2 && i != 3 && i != 10 ==> f[i] == g[i]
    ensures !IsReserved(t, 1) && 1 < |f| ==> f[1] == g[1]
    ensures !IsReserved(t, 2) && 2 < |f| ==> f[2] == g[2]
    ensures !IsReserved(t, 3) && 3 < |f| ==> f[3] == g[3]
    ensures !IsReserved(t, 10) && 10 < |f| ==> f[10] == g[10]
  {
  }

  /** The element count sits outside the reserved bytes, so frames with the
      same fields declare the same tail. */
  lemma CountIgnoresReserved(t: PduType, f: seq<byte>, g: seq<byte>)
    requires t.OnWire() && FixedSize(t) <= |f| && SameFields(t, f, g)
    ensures FixedSize(t) <= |g| && ExpectedLength(t, f) == ExpectedLength(t, g)
  {
    AgreeOutside(t, f, g);
    if HasTail(t) {
      var k := FixedSize(t) - 4;
      assert f[k] == g[k] && f[k + 1] == g[k + 1] && f[k + 2] == g[k + 2] && f[k + 3] == g[k + 3];
    }
  }

  /** Two frames of a type with a tail that differ only in reserved bytes
      decode alike. */
  lemma TailedIgnoresReserved(t: PduType, f: seq<byte>, g: seq<byte>)
    requires HasTail(t) && FixedSize(t) <= |f| && |f| == ExpectedLength(t, f)
    requires SameFields(t, f, g)
    ensures FixedSize(t) <= |g| && |g| == ExpectedLength(t, g)
    ensures DecodeTailed(t, f) == DecodeTailed(t, g)
  {
    CountIgnoresReserved(t, f, g);
    AgreeOutside(t, f, g);
    assert TailOf(t, f) == TailOf(t, g);
    if t == PduType.VerifyV4Request {
      assert f[16..20] == g[16..20];
    } else if t == PduType.VerifyV6Request {
      assert f[16..32] == g[16..32];
    }
  }

  /** Two frames of a fixed-size type that differ only in reserved bytes
      decode alike. */
  lemma FixedIgnoresReserved(t: PduType, f: seq<byte>, g: seq<byte>)
    requires t.OnWire() && !HasTail(t) && |f| == FixedSize(t)
    requires SameFields(t, f, g)
    ensures DecodeFixed(t, f) == DecodeFixed(t, g)
  {
    AgreeOutside(t, f, g);
  }

  /** Two complete frames of type t that differ only in reserved bytes
      declare the same tail and decode alike. */
  lemma FrameIgnoresReserved(t: PduType, f: seq<byte>, g: seq<byte>)
    requires t.OnWire() && FixedSize(t) <= |f| && |f| == ExpectedLength(t, f)
    requires SameFields(t, f, g)
    ensures FixedSize(t) <= |g| && |g| == ExpectedLength(t, g)
    ensures DecodeFrame(t, f) == DecodeFrame(t, g)
  {
    if HasTail(t) {
      TailedIgnoresReserved(t, f, g);
    } else {
      FixedIgnoresReserved(t, f, g);
    }
  }

  /** Decoding never reads a reserved byte: two buffers that agree on every
      byte not reserved for the type their first byte names decode alike,
      to the same PDU or the same error. */
  lemma DecodeIgnoresReserved(s: seq<byte>, u: seq<byte>)
    requires s != [] && SameFields(TypeOfCode(s[0]), s, u)
    ensures Decode(s) == Decode(u)
  {
    var t := TypeOfCode(s[0]);
    AgreeOutside(t, s, u);
    if HeaderSize <= |s| && t.OnWire() {
      var len := U32At(s, 4);
      assert len == U32At(u, 4);
      if FixedSize(t) <= len && FixedSize(t) <= |s| {
        CountIgnoresReserved(t, s, u);
        if len == ExpectedLength(t, s) && len <= |s| {
          var f := s[..len];
          var g := u[..len];
          assert SameFields(t, f, g);
          ExpectedLengthOfPrefix(t, s, len);
          FrameIgnoresReserved(t, f, g);
        }
      }
    }
  }
}

=== FILE: results.dfy ===
/** Optional values and success-or-error results used across the model. */
module Results {

  datatype Option<+T> = None | Some(value: T)

  datatype Result<+T, +E> = Success(value: T) | Failure(error: E) {
    predicate IsFailure() {
      Failure?
    }

    function PropagateFailure<U>(): Result<U, E>
      requires Failure?
    {
      Failure(error)
    }

    function Extract(): T
      requires Success?
    {
      value
    }
  }
}

=== FILE: roundtrip.dfy ===
/**
 Round trip of the codec: decoding the encoding of any well-formed PDU gives
 that PDU back, whatever bytes follow it in the stream.
 */
module RoundTrip {
  import opened Results
  import opened Bytes
  import opened Protocol
  import opened Layout
  import opened Pdus
  import opened Codec

  /** The peer list reads back from its bytes in the same order. */
  lemma {:induction false} PeersRoundTrip(peers: seq<uint32>)
    ensures ReadPeers(PeerBytes(peers)) == peers
  {
    if peers != [] {
      var b := PeerBytes(peers);
      assert b == U32(peers[0]) + PeerBytes(peers[1..]);
      assert b[4..] == PeerBytes(peers[1..]);
      U32AtSlice(b, 0, peers[0]);
      PeersRoundTrip(peers[1..]);
    }
  }

  /** Reading a 32-bit field of a frame that starts a longer buffer. */
  lemma FieldOf(s: seq<byte>, e: seq<byte>, i: nat, x: uint32)
    requires |e| <= |s| && s[..|e|] == e && i + 4 <= |e|
    requires e[i..i + 4] == U32(x)
    ensures U32At(s, i) == x
  {
    assert s[i..i + 4] == e[i..i + 4];
    U32AtSlice(s, i, x);
  }

  /** The element count read from a frame is the one read from any buffer
      the frame starts. */
  lemma ExpectedLengthOfPrefix(t: PduType, s: seq<byte>, len: nat)
    requires t.OnWire() && FixedSize(t) <= len <= |s|
    ensures ExpectedLength(t, s[..len]) == ExpectedLength(t, s)
  {
    if HasTail(t) {
      var k := FixedSize(t) - 4;
      assert s[..len][k..k + 4] == s[k..k + 4];
      U32Canonical(s, k);
      U32AtSlice(s[..len], k, U32At(s, k));
    }
  }

  /** A buffer whose basic header names type t and declares the length its
      element count demands decodes as the frame of that length. */
  lemma DecodeAccepts(s: seq<byte>, t: PduType, len: nat)
    requires t.OnWire() && FixedSize(t) <= len <= |s|
    requires s[0] == TypeCode(t) && U32At(s, 4) == len
    requires len == ExpectedLength(t, s)
    ensures len == ExpectedLength(t, s[..len])
    ensures Decode(s) == DecodeFrame(t, s[..len])
  {
    ExpectedLengthOfPrefix(t, s, len);
    U32Canonical(s, 4);
    TypeCodeBijective(t, t);
  }

  lemma FrameHello(p: Pdu)
    requires p.Hello? && WellFormed(p)
    ensures ExpectedLength(PduType.Hello, Encode(p)) == |Encode(p)|
    ensures DecodeFrame(PduType.Hello, Encode(p)) == Success(p)
  {
    var e := Encode(p);
    var n := |p.peers|;
    assert e == [0] + U16(p.version) + [0] + U32(|e|)
              + U32(p.proxyIdentifier) + U32(p.asn) + U32(n) + PeerBytes(p.peers);
    U32AtSlice(e, 8, p.proxyIdentifier);
    U32AtSlice(e, 12, p.asn);
    U32AtSlice(e, 16, n);
    assert TailOf(PduType.Hello, e) == PeerBytes(p.peers);
    PeersRoundTrip(p.peers);
  }

  lemma FrameHelloResponse(p: Pdu)
    requires p.HelloResponse? && WellFormed(p)
    ensures ExpectedLength(PduType.HelloResponse, Encode(p)) == |Encode(p)|
    ensures DecodeFrame(PduType.HelloResponse, Encode(p)) == Success(p)
  {
    var e := Encode(p);
    assert e == [1] + U16(p.version) + [0] + U32(12) + U32(p.proxyIdentifier);
    U32AtSlice(e, 8, p.proxyIdentifier);
  }

  lemma FrameGoodbye(p: Pdu)
    requires p.Goodbye? && WellFormed(p)
    ensures ExpectedLength(PduType.Goodbye, Encode(p)) == |Encode(p)|
    ensures DecodeFrame(PduType.Goodbye, Encode(p)) == Success(p)
  {
    var e := Encode(p);
    assert e == [2] + U16(p.keepWindow) + [0] + U32(8);
  }

  lemma FrameVerifyV4(p: Pdu)
    requires p.VerifyV4Request? && WellFormed(p)
    ensures ExpectedLength(PduType.VerifyV4Request, Encode(p)) == |Encode(p)|
    ensures DecodeFrame(PduType.VerifyV4Request, Encode(p)) == Success(p)
  {
    var e := Encode(p);
    var v := p.verify;
    var n := |p.bgpsecData|;
    assert e == [3] + [v.flags, v.roaResSrc, v.bgpsecResSrc] + U32(|e|)
              + [v.roaDefRes, v.bgpsecDefRes, 0, v.prefixLen] + U32(v.requestToken)
              + p.prefix4 + U32(p.originAS) + U32(n) + p.bgpsecData;
    U32AtSlice(e, 12, v.requestToken);
    U32AtSlice(e, 20, p.originAS);
    U32AtSlice(e, 24, n);
    assert e[16..20] == p.prefix4;
    assert TailOf(PduType.VerifyV4Request, e) == p.bgpsecData;
  }

  lemma FrameVerifyV6(p: Pdu)
    requires p.VerifyV6Request? && WellFormed(p)
    ensures ExpectedLength(PduType.VerifyV6Request, Encode(p)) == |Encode(p)|
    ensures DecodeFrame(PduType.VerifyV6Request, Encode(p)) == Success(p)
  {
    var e := Encode(p);
    var v := p.verify;
    var n := |p.bgpsecData|;
    assert e == [4] + [v.flags, v.roaResSrc, v.bgpsecResSrc] + U32(|e|)
              + [v.roaDefRes, v.bgpsecDefRes, 0, v.prefixLen] + U32(v.requestToken)
              + p.prefix6 + U32(p.originAS) + U32(n) + p.bgpsecData;
    U32AtSlice(e, 12, v.requestToken);
    U32AtSlice(e, 32, p.originAS);
    U32AtSlice(e, 36, n);
    assert e[16..32] == p.prefix6;
    assert TailOf(PduType.VerifyV6Request, e) == p.bgpsecData;
  }

  lemma FrameSignRequest(p: Pdu)
    requires p.SignRequest? && WellFormed(p)
    ensures ExpectedLength(PduType.SignRequest, Encode(p)) == |Encode(p)|
    ensures DecodeFrame(PduType.SignRequest, Encode(p)) == Success(p)
  {
    var e := Encode(p);
    assert Body(p) == U32(p.updateIdentifier) + U32(p.prependCounter) + U32(p.peerAS);
    assert e == [5] + U16(p.algorithm) + [p.blockType] + U32(20) + Body(p);
    U32AtSlice(e, 8, p.updateIdentifier);
    U32AtSlice(e, 12, p.prependCounter);
    U32AtSlice(e, 16, p.peerAS);
  }

  lemma FrameVerifyNotification(p: Pdu)
    requires p.VerifyNotification? && WellFormed(p)
    ensures ExpectedLength(PduType.VerifyNotification, Encode(p)) == |Encode(p)|
    ensures DecodeFrame(PduType.VerifyNotification, Encode(p)) == Success(p)
  {
    var e := Encode(p);
    assert e == [6] + [p.resultType, p.roaResult, p.bgpsecResult] + U32(16)
              + U32(p.requestToken) + U32(p.updateID);
    U32AtSlice(e, 8, p.requestToken);
    U32AtSlice(e, 12, p.updateID);
  }

  lemma FrameSignatureNotification(p: Pdu)
    requires p.SignatureNotification? && WellFormed(p)
    ensures ExpectedLength(PduType.SignatureNotification, Encode(p)) == |Encode(p)|
    ensures DecodeFrame(PduType.SignatureNotification, Encode(p)) == Success(p)
  {
    var e := Encode(p);
    var n := |p.bgpsecData|;
    assert e == [7] + [0, 0, 0] + U32(|e|)
              + U32(p.updateIdentifier) + U32(n) + p.bgpsecData;
    U32AtSlice(e, 8, p.updateIdentifier);
    U32AtSlice(e, 12, n);
    assert TailOf(PduType.SignatureNotification, e) == p.bgpsecData;
  }

  lemma FrameDeleteUpdate(p: Pdu)
    requires p.DeleteUpdate? && WellFormed(p)
    ensures ExpectedLength(PduType.DeleteUpdate, Encode(p)) == |Encode(p)|
    ensures DecodeFrame(PduType.DeleteUpdate, Encode(p)) == Success(p)
  {
    var e := Encode(p);
    assert e == [8] + U16(p.keepWindow) + [0] + U32(12) + U32(p.updateIdentifier);
    U32AtSlice(e, 8, p.updateIdentifier);
  }

  lemma FramePeerChange(p: Pdu)
    requires p.PeerChange? && WellFormed(p)
    ensures ExpectedLength(PduType.PeerChange, Encode(p)) == |Encode(p)|
    ensures DecodeFrame(PduType.PeerChange, Encode(p)) == Success(p)
  {
    var e := Encode(p);
    assert e == [9] + [0, 0, p.changeType] + U32(12) + U32(p.peerAS);
    U32AtSlice(e, 8, p.peerAS);
  }

  lemma FrameSyncRequest(p: Pdu)
    requires p.SyncRequest? && WellFormed(p)
    ensures ExpectedLength(PduType.SyncRequest, Encode(p)) == |Encode(p)|
    ensures DecodeFrame(PduType.SyncRequest, Encode(p)) == Success(p)
  {
  }

  lemma FrameError(p: Pdu)
    requires p.Error? && WellFormed(p)
    ensures ExpectedLength(PduType.Error, Encode(p)) == |Encode(p)|
    ensures DecodeFrame(PduType.Error, Encode(p)) == Success(p)
  {
    var e := Encode(p);
    assert e == [11] + U16(ErrorCodeValue(p.errorCode)) + [0] + U32(8);
    ErrorCodeBijective(p.errorCode);
  }

  /** The frame of an encoding declares its own size and decodes back to the
      PDU. */
  lemma FrameOfEncoding(p: Pdu)
    requires WellFormed(p)
    ensures ExpectedLength(TypeOf(p), Encode(p)) == |Encode(p)|
    ensures DecodeFrame(TypeOf(p), Encode(p)) == Success(p)
  {
    match p
    case Hello(_, _, _, _) => FrameHello(p);
    case HelloResponse(_, _) => FrameHelloResponse(p);
    case Goodbye(_) => FrameGoodbye(p);
    case VerifyV4Request(_, _, _, _) => FrameVerifyV4(p);
    case VerifyV6Request(_, _, _, _) => FrameVerifyV6(p);
    case SignRequest(_, _, _, _, _) => FrameSignRequest(p);
    case VerifyNotification(_, _, _, _, _) => FrameVerifyNotification(p);
    case SignatureNotification(_, _) => FrameSignatureNotification(p);
    case DeleteUpdate(_, _) => FrameDeleteUpdate(p);
    case PeerChange(_, _) => FramePeerChange(p);
    case SyncRequest => FrameSyncRequest(p);
    case Error(_) => FrameError(p);
  }

  /** Decoding the encoding of a well-formed PDU gives it back, and the
      declared length makes the decoder stop exactly at its end. */
  lemma RoundTripStream(p: Pdu, rest: seq<byte>)
    requires WellFormed(p)
    ensures Decode(Encode(p) + rest) == Success(p)
  {
    var t := TypeOf(p);
    var e := Encode(p);
    var s := e + rest;
    FrameOfEncoding(p);
    assert s[..|e|] == e;
    assert e[4..8] == U32(HeaderSize + |Body(p)|);
    FieldOf(s, e, 4, |e|);
    ExpectedLengthOfPrefix(t, s, |e|);
    DecodeAccepts(s, t, |e|);
  }

  /** decode(encode(p)) == p for every well-formed PDU. */
  lemma RoundTripExact(p: Pdu)
    requires WellFormed(p)
    ensures Decode(Encode(p)) == Success(p)
  {
    RoundTripStream(p, []);
    assert Encode(p) + [] == Encode(p);
  }
}

=== FILE: scenarios.dfy ===
/**
 Concrete exchanges of the SRx proxy protocol, stated on the wire: a HELLO
 with two peers, a VERIFY_V4_REQUEST without BGPSEC data, the match of a
 verify notification to the verify request whose token it carries, and two
 headers whose declared length no PDU of their type can have: a 13-byte
 HELLO_RESPONSE and a 21-byte HELLO.
 */
module Scenarios {
  import opened Results
  import opened Bytes
  import opened Protocol
  import opened Pdus
  import opened Codec
  import opened RoundTrip
  import opened Wire
  import Framing

  /** A HELLO of ASN 64 with peers 32 and 48 takes 20 + 2 * 4 = 28 bytes,
      carries the peers in that order, and decodes back to ASN 64 and the
      peer list [32, 48]. */
  lemma HelloScenario(proxyIdentifier: uint32)
    ensures var p := Pdu.Hello(SRX_PROTOCOL_VER, proxyIdentifier, 64, [32, 48]);
            var e := Encode(p);
            |e| == 28 && U32At(e, 4) == 28 && U32At(e, 12) == 64 && U32At(e, 16) == 2 &&
            U32At(e, 20) == 32 && U32At(e, 24) == 48 &&
            Decode(e).Success? && Decode(e).value.asn == 64 &&
            Decode(e).value.peers == [32, 48]
  {
    var p := Pdu.Hello(SRX_PROTOCOL_VER, proxyIdentifier, 64, [32, 48]);
    HelloLayout(p);
    HelloPeers(p);
    RoundTripExact(p);
  }

  /** A VERIFY_V4_REQUEST whose BGPSEC block is empty takes exactly the 28
      bytes of its packed struct, says `bgpsecLength` = 0, and decodes to an
      empty block. */
  lemma EmptyBgpsecScenario(v: VerifyHeader, prefix: IPv4Address, originAS: uint32)
    ensures var p := Pdu.VerifyV4Request(v, prefix, originAS, []);
            var e := Encode(p);
            |e| == 28 && U32At(e, 4) == 28 && U32At(e, 24) == 0 &&
            Decode(e).Success? && Decode(e).value.bgpsecData == []
  {
    var p := Pdu.VerifyV4Request(v, prefix, originAS, []);
    BgpsecLayout(p);
    RoundTripExact(p);
  }

  /** A decoded verify notification answers a decoded verify request exactly
      when the token field of the notification (bytes 8..11) holds the
      token field of the request (bytes 12..15). */
  lemma TokenScenario(s: seq<byte>, request: Pdu, u: seq<byte>, notification: Pdu)
    requires Decode(s) == Success(request) && Decode(u) == Success(notification)
    requires request.VerifyV4Request? || request.VerifyV6Request?
    requires notification.VerifyNotification?
    ensures 16 <= |s| && 16 <= |u|
    ensures request.verify.requestToken == notification.requestToken
        <==> U32At(s, 12) == U32At(u, 8)
  {
    DecodedVerifyRequest(s, request);
    DecodedVerifyNotification(u, notification);
  }

  /** A HELLO_RESPONSE header that declares 13 bytes is rejected as soon as
      its 8 header bytes are in: the struct is 12 bytes and has no tail, so
      no further byte could make 13 right. */
  lemma WrongFixedLengthScenario()
    ensures Decode([1, 0, 1, 0, 0, 0, 0, 13]) == Failure(Malformed(LengthMismatch(13, 12)))
  {
    Framing.WrongLengthIsMalformed([1, 0, 1, 0, 0, 0, 0, 13]);
  }

  /** A HELLO header that declares 21 bytes is rejected from its 8 header
      bytes alone: the peer list after the 20-byte fixed part would end one
      byte into a peer. */
  lemma PartialPeerScenario()
    ensures Decode([0, 0, 1, 0, 0, 0, 0, 21]) == Failure(Malformed(PartialElement(21)))
  {
    Framing.WrongLengthIsMalformed([0, 0, 1, 0, 0, 0, 0, 21]);
  }
}

=== FILE: wire.dfy ===
/**
 Where the fields of each PDU sit on the wire: the peer list of a HELLO, the
 BGPSEC block of the verify requests and the signature notification, and the
 flags and request tokens that correlate verify requests with notifications.
 */
module Wire {
  import opened Results
  import opened Bytes
  import opened Protocol
  import opened Layout
  import opened Pdus
  import opened Codec
  import opened RoundTrip
  import opened Framing
  import opened Reserved

  /** A 32-bit field read from a suffix is the field at the shifted offset. */
  lemma U32AtShift(s: seq<byte>, i: nat, j: nat)
    requires i + j + 4 <= |s|
    ensures U32At(s[i..], j) == U32At(s, i + j)
  {
    assert s[i..][j] == s[i + j] && s[i..][j + 1] == s[i + j + 1];
    assert s[i..][j + 2] == s[i + j + 2] && s[i..][j + 3] == s[i + j + 3];
  }

  /** The k-th peer read from a peer list sits at byte 4 * k. */
  lemma {:induction false} ReadPeersAt(s: seq<byte>, k: nat)
    requires |s| % 4 == 0 && 4 * k + 4 <= |s|
    ensures ReadPeers(s)[k] == U32At(s, 4 * k)
  {
    if k > 0 {
      ReadPeersAt(s[4..], k - 1);
      U32AtShift(s, 4, 4 * (k - 1));
    }
  }

  /** A HELLO with n peers takes 20 + 4 * n bytes, and its fixed fields sit
      where the packed struct puts them, with `noPeers` = n at bytes 16..19. */
  lemma HelloLayout(p: Pdu)
    requires p.Hello? && WellFormed(p)
    ensures var e := Encode(p);
            |e| == 20 + 4 * |p.peers| && U32At(e, 4) == |e| &&
            e[0] == TypeCode(PduType.Hello) && U16At(e, 1) == p.version &&
            U32At(e, 8) == p.proxyIdentifier && U32At(e, 12) == p.asn &&
            U32At(e, 16) == |p.peers|
  {
    FrameOfEncoding(p);
    HeaderOfEncoding(p);
    U32AtSlice(Encode(p), 4, Size(p));
  }

  /** A peer list read from byte 20 of a frame puts peer k at 20 + 4 * k. */
  lemma PeersAt(f: seq<byte>, peers: seq<uint32>)
    requires 20 <= |f| && (|f| - 20) % 4 == 0 && ReadPeers(f[20..]) == peers
    ensures forall k :: 0 <= k < |peers| ==> U32At(f, 20 + 4 * k) == peers[k]
  {
    forall k | 0 <= k < |peers|
      ensures U32At(f, 20 + 4 * k) == peers[k]
    {
      ReadPeersAt(f[20..], k);
      U32AtShift(f, 20, 4 * k);
    }
  }

  lemma FourDivides(n: nat)
    ensures (4 * n) % 4 == 0
  {
  }

  /** The tail of an encoded HELLO reads back as its peer list. */
  lemma HelloTail(p: Pdu)
    requires p.Hello? && WellFormed(p)
    ensures |Encode(p)| == 20 + 4 * |p.peers|
    ensures (|Encode(p)| - 20) % 4 == 0
    ensures ReadPeers(Encode(p)[20..]) == p.peers
  {
    var e := Encode(p);
    FourDivides(|p.peers|);
    FrameOfEncoding(p);
    assert DecodeTailed(PduType.Hello, e) == p;
  }

  /** The peer ASNs of a HELLO follow its fixed part in the caller's order,
      peer k at byte 20 + 4 * k. */
  lemma HelloPeers(p: Pdu)
    requires p.Hello? && WellFormed(p)
    ensures forall k :: 0 <= k < |p.peers| ==> U32At(Encode(p), 20 + 4 * k) == p.peers[k]
  {
    HelloTail(p);
    PeersAt(Encode(p), p.peers);
  }

  /** For the PDUs with a BGPSEC block the total length is the fixed size
      plus `bgpsecLength`, the count field holds the block's length, and the
      block closes the frame byte for byte. An empty block gives exactly the
      fixed size. */
  lemma BgpsecLayout(p: Pdu)
    requires p.VerifyV4Request? || p.VerifyV6Request? || p.SignatureNotification?
    requires WellFormed(p)
    ensures var e := Encode(p);
            var t := TypeOf(p);
            |e| == FixedSize(t) + |p.bgpsecData| && U32At(e, 4) == |e| &&
            U32At(e, FixedSize(t) - 4) == |p.bgpsecData| &&
            e[FixedSize(t)..] == p.bgpsecData
    ensures p.bgpsecData == [] ==> Encode(p) == Encode(p)[..FixedSize(TypeOf(p))]
  {
    var e := Encode(p);
    FrameOfEncoding(p);
    HeaderOfEncoding(p);
    U32AtSlice(e, 4, Size(p));
  }

  /** The wire fields of a verify request: flags and result sources in bytes
      1..3, the defaults in 8 and 9, a 0 in 10, the prefix length in 11 and
      the request token in 12..15. */
  lemma VerifyRequestFields(p: Pdu)
    requires p.VerifyV4Request? || p.VerifyV6Request?
    requires WellFormed(p)
    ensures var e := Encode(p);
            var v := p.verify;
            e[1] == v.flags && e[2] == v.roaResSrc && e[3] == v.bgpsecResSrc &&
            e[8] == v.roaDefRes && e[9] == v.bgpsecDefRes && e[10] == 0 &&
            e[11] == v.prefixLen && U32At(e, 12) == v.requestToken
  {
    FrameOfEncoding(p);
    EncodeZeroesReserved(p, 10);
  }

  /** The wire fields of a verify notification: result type and results in
      bytes 1..3, the request token in 8..11 and the update id in 12..15. */
  lemma VerifyNotificationFields(p: Pdu)
    requires p.VerifyNotification? && WellFormed(p)
    ensures var e := Encode(p);
            e[1] == p.resultType && e[2] == p.roaResult && e[3] == p.bgpsecResult &&
            U32At(e, 8) == p.requestToken && U32At(e, 12) == p.updateID
  {
    FrameOfEncoding(p);
  }

  /** The wire fields of a HELLO_RESPONSE: `version` in bytes 1..2 and
      `proxyIdentifier` in 8..11. */
  lemma HelloResponseFields(p: Pdu)
    requires p.HelloResponse? && WellFormed(p)
    ensures var e := Encode(p);
            U16At(e, 1) == p.version && U32At(e, 8) == p.proxyIdentifier
  {
    FrameOfEncoding(p);
  }

  /** The wire field of a GOODBYE: `keepWindow` in bytes 1..2. */
  lemma GoodbyeFields(p: Pdu)
    requires p.Goodbye? && WellFormed(p)
    ensures U16At(Encode(p), 1) == p.keepWindow
  {
    FrameOfEncoding(p);
  }

  /** The address fields of a VERIFY_V4_REQUEST: `prefixAddress` in bytes
      16..19 and `originAS` in 20..23, before `bgpsecLength` at 24. */
  lemma VerifyV4AddressFields(p: Pdu)
    requires p.VerifyV4Request? && WellFormed(p)
    ensures var e := Encode(p);
            e[16..20] == p.prefix4 && U32At(e, 20) == p.originAS
  {
    FrameOfEncoding(p);
  }

  /** The address fields of a VERIFY_V6_REQUEST: `prefixAddress` in bytes
      16..31 and `originAS` in 32..35, before `bgpsecLength` at 36. */
  lemma VerifyV6AddressFields(p: Pdu)
    requires p.VerifyV6Request? && WellFormed(p)
    ensures var e := Encode(p);
            e[16..32] == p.prefix6 && U32At(e, 32) == p.originAS
  {
    FrameOfEncoding(p);
  }

  /** The wire fields of a SIGN_REQUEST: `algorithm` in bytes 1..2,
      `blockType` in 3, then `updateIdentifier`, `prependCounter` and
      `peerAS` at 8, 12 and 16. */
  lemma SignRequestFields(p: Pdu)
    requires p.SignRequest? && WellFormed(p)
    ensures var e := Encode(p);
            U16At(e, 1) == p.algorithm && e[3] == p.blockType &&
            U32At(e, 8) == p.updateIdentifier && U32At(e, 12) == p.prependCounter &&
            U32At(e, 16) == p.peerAS
  {
    FrameOfEncoding(p);
  }

  /** The wire field of a SIGNATURE_NOTIFICATION before its block:
      `updateIdentifier` in bytes 8..11. */
  lemma SignatureNotificationFields(p: Pdu)
    requires p.SignatureNotification? && WellFormed(p)
    ensures U32At(Encode(p), 8) == p.updateIdentifier
  {
    FrameOfEncoding(p);
  }

  /** The wire fields of a DELETE_UPDATE: `keepWindow` in bytes 1..2 and
      `updateIdentifier` in 8..11. */
  lemma DeleteUpdateFields(p: Pdu)
    requires p.DeleteUpdate? && WellFormed(p)
    ensures var e := Encode(p);
            U16At(e, 1) == p.keepWindow && U32At(e, 8) == p.updateIdentifier
  {
    FrameOfEncoding(p);
  }

  /** The wire fields of a PEER_CHANGE: `changeType` in byte 3 and `peerAS`
      in 8..11. */
  lemma PeerChangeFields(p: Pdu)
    requires p.PeerChange? && WellFormed(p)
    ensures var e := Encode(p);
            e[3] == p.changeType && U32At(e, 8) == p.peerAS
  {
    FrameOfEncoding(p);
  }

  /** The wire field of an ERROR: the error code's value in bytes 1..2. */
  lemma ErrorFields(p: Pdu)
    requires p.Error? && WellFormed(p)
    ensures U16At(Encode(p), 1) == ErrorCodeValue(p.errorCode)
  {
    FrameOfEncoding(p);
    ErrorCodeBijective(p.errorCode);
  }

  /** A decoded verify request carries the flags byte and the request token
      exactly as they stood in the buffer, so every flag bit survives. */
  lemma DecodedVerifyRequest(s: seq<byte>, v: Pdu)
    requires Decode(s) == Success(v)
    requires v.VerifyV4Request? || v.VerifyV6Request?
    ensures 16 <= |s| && v.verify.flags == s[1] && v.verify.requestToken == U32At(s, 12)
    ensures forall bit :: bit in {SRX_PROXY_FLAGS_VERIFY_PREFIX_ORIGIN, SRX_PROXY_FLAGS_VERIFY_PATH,
                                  SRX_PROXY_FLAGS_VERIFY_RECEIPT} ==>
              (HasFlag(v.verify.flags, bit) <==> HasFlag(s[1], bit))
  {
    DecodedFrame(s, v);
    var f := s[..Size(v)];
    DecodeAccepts(s, TypeOf(v), Size(v));
    assert f[1] == s[1];
    assert f[12] == s[12] && f[13] == s[13] && f[14] == s[14] && f[15] == s[15];
  }

  /** A decoded verify notification carries the request token exactly as it
      stood in bytes 8..11 of the buffer. */
  lemma DecodedVerifyNotification(s: seq<byte>, v: Pdu)
    requires Decode(s) == Success(v) && v.VerifyNotification?
    ensures 16 <= |s| && v.resultType == s[1] && v.requestToken == U32At(s, 8)
  {
    DecodedFrame(s, v);
    var f := s[..Size(v)];
    DecodeAccepts(s, TypeOf(v), Size(v));
    assert f[1] == s[1];
    assert f[8] == s[8] && f[9] == s[9] && f[10] == s[10] && f[11] == s[11];
  }
}
